=== FILE: README.md ===
# Rocket image-sequence players, modelled in Dafny

The site shows a rocket launch as a sequence of JPEG frames painted on a
full-window canvas and driven by scrolling. There are three players:

- **RocketAnimation.jsx** (the first player). It holds 700 frames. It loads
  frames 1, 250 and 500 up front and becomes ready only if all three load. It
  caches only successful loads. It maps the container's scroll position to a
  frame with an unguarded quotient.
- **Rocket2Animation.jsx** (the progressive player). It holds 700 frames. It
  loads a list of essential frames, then every other frame in batches of 15 in
  the background. A failed fetch stores a 1x1 placeholder. The player draws the
  requested frame, or the nearest cached frame within 29 frames of it, then
  requests the frames within 30 of the request. Its scroll quotient guards
  against a zero or negative divisor.
- **RocketLaunch.jsx** (the scroll-position player). It creates 500 image slots
  up front and maps the page's scroll fraction to a 0-based slot. It draws the
  slot's image once that image is complete.

The model is a set of pure functions over immutable state records: one
transition per handler of each player. It has these parts:

- **Networking.** A fetch is an oracle, `Network = string -> Fetch`, keyed by
  the frame's URL. Each load settles at once.
- **Frame URLs.** `rocket1%20(<n>).jpg` under a base path. For the third player,
  `encodeURIComponent` is modelled over ASCII and shown to produce the same
  address the first player writes literally.
- **Aspect-fill placement.** There are two formulations: comparing aspect ratios
  (`Cover.AspectFill`), and taking the larger scale factor
  (`Cover.MaxScaleCover`). They are proved equal.
- **Activation.** The 80%/20% viewport band, plus a one-shot latch that asks
  for frame 1 on the first activation.
- **Scroll-to-frame mapping.** One version per player.
- **Progressive player's loading plan.** The essential frames, the remaining
  frames in ascending order, batches of 15, and the stop on unmount.
- **Nearest-frame search** and the preload window around a drawn frame.

The handlers of both container-driven players close over the state of the last
React render. `isActive` in them is the committed value, and `setIsActive`
takes effect at the next render. The model keeps that distinction:

- The `drawFrame(1)` issued by the activation check runs in the render that was
  still dormant, so it draws nothing.
- The scroll handler runs when the last render was active.
- The listener effect depends on `isActive`, so it re-runs after every
  activation change. The re-run's `handleResize` call is what draws the current
  frame (`Rocket2Player.RerunDrawsCurrentFrame`,
  `RocketAnimation.ResizeRedrawsCurrentFrame`).

### Behaviour worth knowing

- **Scroll-to-frame scale.** With an 800-pixel viewport and a 1600-pixel
  container, the progressive player's divisor is the container height, 1600.
  - 400 pixels of scrolling select frame 176, and 800 pixels select frame 351.
    Frame 700 is only reached after 1600 pixels
    (`Rocket2Scroll.TwoViewportsTallExample`).
  - While such a container is in view, no frame past 630 is ever selected
    (`Rocket2Scroll.InViewFramesStopAt630`). The bound needs the container in
    view. A scroll that leaves the band is still handled by the active render
    and goes further: with the top 1500 pixels above the viewport, frame 657 is
    selected (`Rocket2Scroll.LeavingViewGoesPast630`).
- **Placeholders.** The nearest-frame search treats a 1x1 placeholder like any
  other cached image.
- **Essential frames.** The list is only filtered to [1, 700], not
  deduplicated. For 700 frames it has no duplicates
  (`Rocket2Schedule.EssentialFramesOf700`).
- **No stand-in.** When no cached frame is within reach, the canvas is left as
  it was.
- **Degenerate geometry.** The first player divides without a guard:
  - A zero divisor with a positive numerator gives +Infinity, which selects the
    last frame.
  - A zero divisor with a zero numerator gives NaN, modelled as the
    `NotANumber` outcome. Over a non-zero divisor, a zero numerator selects
    frame 1.
  - A container exactly half the viewport tall, scrolled above the viewport,
    zeroes the divisor. It jumps to frame 700 in the first player and stays on
    frame 1 in the progressive one (`Variants.HalfViewportContainerDisagrees`).
  - A container less than half the viewport tall, scrolled above the viewport,
    gives a negative divisor. Both players then show frame 1
    (`Variants.NegativeDivisorFirstFrame`,
    `Rocket2Scroll.ShortContainerShowsFirstFrame`).
  - A container taller than the viewport whose top lies exactly its own height
    below the viewport's top also zeroes the divisor, with nothing scrolled past
    its top. The 200vh container two viewports down is one. A scroll there,
    handled by a render that was still active, gives the first player a NaN
    frame (`Variants.ContainerOwnHeightBelowIsNaN`).

## Model

| member | source | states |
|---|---|---|
| FrameUrl.Decimal | src/components/Rocket2Animation.jsx:50 | the frame number is written as digits only, at least one, with no leading zero |
| FrameUrl.DecimalRoundTrip | src/components/Rocket2Animation.jsx:50 | reading back the decimal notation that the URL template puts between the parentheses gives the frame number back |
| FrameUrl.IntDecimalRoundTrip | src/components/RocketLaunch.jsx:9 | the same for any integer, negative numbers carrying a minus sign |
| FrameUrl.PercentEncode | src/components/RocketLaunch.jsx:10 | an escape is `%` and two hex digits that decode back to the escaped ASCII character |
| FrameUrl.EncodeURIComponent | src/components/RocketLaunch.jsx:10 | the encoding holds only unreserved characters, `%` and hex digits |
| FrameUrl.EncodeDecodeRoundTrip | src/components/RocketLaunch.jsx:10 | percent-decoding undoes `encodeURIComponent` on every ASCII string, so the encoding is injective |
| FrameUrl.EncodeAppend | src/components/RocketLaunch.jsx:10 | the encoding of a concatenation is the concatenation of the encodings |
| FrameUrl.EncodeUnescaped | src/components/RocketLaunch.jsx:10 | text of unreserved characters passes through unchanged |
| FrameUrl.EncodeOneEscape | src/components/RocketLaunch.jsx:9-10 | one reserved character between unreserved runs is the only thing escaped |
| FrameUrl.EncodeIntDecimal | src/components/RocketLaunch.jsx:9-10 | the decimal notation of any frame index passes through the encoder unchanged |
| FrameUrl.TemplateUrlRoundTrip | src/components/RocketAnimation.jsx:34 | the frame number can be parsed back out of the URL built for it |
| FrameUrl.TemplateUrlInjective | src/components/Rocket2Animation.jsx:50 | distinct frames are fetched from distinct URLs |
| RocketLaunch.GetImageUrl | src/components/RocketLaunch.jsx:5-11 | base path plus encoded `rocket1 (i).jpg` is exactly base path plus `rocket1%20(i).jpg` |
| RocketLaunch.EncodeNameHead | src/components/RocketLaunch.jsx:9-10 | in `rocket1 (` only the space is escaped, as `%20`; the parenthesis is kept |
| RocketLaunch.EncodeFileName | src/components/RocketLaunch.jsx:9-10 | the encoded file name is `rocket1%20(` + digits + `).jpg` |
| RocketLaunch.EncodedUnderBase | src/components/RocketLaunch.jsx:8-11 | under any base path, the base plus the encoded `rocket1 (i).jpg` is the template address with `rocket1%20(` |
| RocketLaunch.GetImageUrlInjective | src/components/RocketLaunch.jsx:8-11 | distinct indices give distinct addresses |
| RocketLaunch.PreloadSlots | src/components/RocketLaunch.jsx:33-37 | the loop creates 500 slots, slot k loading frame k+1 |
| RocketLaunch.SlotUrlsDistinct | src/components/RocketLaunch.jsx:33-37 | no two slots request the same image |
| RocketLaunch.FrameIndex | src/components/RocketLaunch.jsx:71-79 | below slot 499 the slot is the floor of the scaled scroll fraction; slot 499 is chosen only when the scaled fraction reaches 499, so it is the cap; slots are non-negative for scroll positions in range and 499 at the bottom; with a zero scroll range, there is no slot at or above the top and slot 499 below it (the infinite quotient capped) |
| RocketLaunch.FrameIndexMonotone | src/components/RocketLaunch.jsx:71-79 | scrolling down never selects an earlier slot |
| RocketLaunch.DrawFrame | src/components/RocketLaunch.jsx:44-69 | a missing or loading slot leaves the canvas untouched, a broken one leaves it cleared, a complete one is drawn as frame index+1 with its image, covering the canvas, centred, with its proportions and fitting one side exactly |
| RocketLaunch.OnScroll | src/components/RocketLaunch.jsx:71-82 | no slot at or above the top of an empty scroll range leaves the canvas untouched; otherwise the slot the scroll position selects is drawn, as its loading state dictates |
| RocketLaunch.PaintedFrameMatchesScroll | src/components/RocketLaunch.jsx:71-82 | a painted frame f has a complete slot holding the painted image, shows the scaled scroll fraction in [f-1, f) (the last frame everything from 499 up) and covers the canvas with one side fitting |
| RocketLaunch.OnFirstFrameLoad | src/components/RocketLaunch.jsx:40-42 | the load of slot 0 marks it complete, touches no other slot and paints frame 1 |
| Cover.AspectFill | src/components/Rocket2Animation.jsx:184-205 | the rectangle covers the canvas, is centred, keeps the image's proportions and fits one side exactly: the height when the image is proportionally wider, else the width |
| Cover.CoverScale | src/components/RocketLaunch.jsx:50-53 | the larger of the two ratios scales both sides to at least the canvas's, one exactly |
| Cover.MaxScaleCover | src/components/RocketLaunch.jsx:50-68 | the max-scale rectangle covers, is centred, keeps proportions and fits one side exactly |
| Cover.AspectFillIsMaxScaleCover | src/components/RocketAnimation.jsx:62-82 | the aspect-ratio comparison and the larger-scale-factor formula give the same rectangle for every canvas and image |
| Viewport.InViewIffOverlapsBand | src/components/Rocket2Animation.jsx:225-226 | the activation test holds exactly when the container overlaps the band between 20% and 80% of the viewport |
| Viewport.Check | src/components/Rocket2Animation.jsx:228-236 | after a check the player is active exactly when in view; frame 1 is requested exactly on a transition to active that has not happened before |
| Viewport.FirstDrawExactlyOnce | src/components/RocketAnimation.jsx:102-107 | over any run of checks, frame 1 is requested once if the player comes into view and had not started, and never otherwise |
| Viewport.ClampFrame | src/components/Rocket2Animation.jsx:261-264 | `min(n, max(1, floor(x) + 1))` always lies in 1..n |
| Viewport.ClampFrameWithin | src/components/Rocket2Animation.jsx:261-264 | for scaled progress x in [0, n], the chosen frame f satisfies f-1 <= x < f, and the last frame also takes x = n |
| Viewport.ClampFrameMonotone | src/components/Rocket2Animation.jsx:261-264 | more progress never selects an earlier frame |
| Viewport.Denominator | src/components/Rocket2Animation.jsx:248-256 | once the top is above the viewport, the divisor is twice the container height less the viewport height for a container no taller than the viewport, and the container height otherwise; with the top in view it is the short-container value when the bottom is in view too, and the height less the top when the bottom is below the viewport |
| Viewport.DenominatorAboveTop | src/components/Rocket2Animation.jsx:248-256 | once the container's top is above the viewport, the divisor is the container height minus the viewport height plus the smaller of the two |
| Rocket2Cache.LoadImage | src/components/Rocket2Animation.jsx:21-52 | a hit returns the cached image and changes nothing; a miss stores and returns the fetched image or the 1x1 placeholder and marks the frame loaded; cache keys and loaded set stay equal |
| Rocket2Cache.HitIgnoresNetwork | src/components/Rocket2Animation.jsx:24-27 | on a hit the network is not consulted |
| Rocket2Cache.LoadImageIdempotent | src/components/Rocket2Animation.jsx:21-52 | loading a frame twice is the same as loading it once |
| Rocket2Cache.LoadAll | src/components/Rocket2Animation.jsx:71 | after loading a list, exactly the listed and the already cached frames are cached; old entries are unchanged and new ones are what the network gave or the placeholder |
| Rocket2Schedule.EssentialFrames | src/components/Rocket2Animation.jsx:60-67 | the essential frames are exactly the candidates within 1..n, and include 1 and n |
| Rocket2Schedule.EssentialFramesOf700 | src/components/Rocket2Animation.jsx:60-67 | for 700 frames the list is 1, 2, 3, 4, 5, 10, 15, 20, 25, 70, 175, 350, 525, 700 |
| Rocket2Schedule.Remaining | src/components/Rocket2Animation.jsx:81-84 | the background work list is exactly the frames 1..n not yet loaded, strictly ascending |
| Rocket2Schedule.Batches | src/components/Rocket2Animation.jsx:86-92 | the batches are non-empty, all but the last hold 15 frames, and together give back the work list |
| Rocket2Schedule.BatchIsSlice | src/components/Rocket2Animation.jsx:89-92 | batch k is `remainingFrames.slice(15k, 15k + 15)` |
| Rocket2Schedule.BatchCount | src/components/Rocket2Animation.jsx:89 | there are ceil(length / 15) batches |
| Rocket2Render.SearchFrom | src/components/Rocket2Animation.jsx:163-177 | the outward search finds a cached neighbour no farther than any other at the same or a larger offset, lower side first on a tie, or reports that none exists past the start offset |
| Rocket2Render.Nearest | src/components/Rocket2Animation.jsx:157-178 | the requested frame when cached; otherwise the nearest cached frame at offset 1..29 within 1..700, the lower on a tie; none exactly when no such frame exists |
| Rocket2Render.NearestExample | src/components/Rocket2Animation.jsx:163-177 | with 340 and 360 cached, frame 351 is drawn from 360 |
| Rocket2Render.NearestTieExample | src/components/Rocket2Animation.jsx:163-177 | with 350 and 352 cached, frame 351 is drawn from 350: the lower neighbour wins a tie |
| Rocket2Render.PreloadRequests | src/components/Rocket2Animation.jsx:128-141 | the frames requested after a draw are exactly those within 30 of it, within 1..700, neither loaded nor cached |
| Rocket2Scroll.Progress | src/components/Rocket2Animation.jsx:248-258 | progress lies in [0, 1]; it is 0 when the divisor is not positive or the top is in view; past the top, progress times divisor is the distance scrolled while that distance is at most the divisor, and progress is 1 once the distance reaches the divisor |
| Rocket2Scroll.FrameForProgress | src/components/Rocket2Animation.jsx:261-264 | frame f shows progress in [(f-1)/700, f/700), and frame 700 also shows progress 1 |
| Rocket2Scroll.TargetFrame | src/components/Rocket2Animation.jsx:247-264 | the target frame lies in 1..700, shows the current progress, and is 1 whenever the divisor is not positive or the top is in view |
| Rocket2Scroll.ProgressMonotone | src/components/Rocket2Animation.jsx:248-258 | for a container of fixed height, scrolling further down never lowers progress |
| Rocket2Scroll.TargetFrameMonotone | src/components/Rocket2Animation.jsx:247-264 | scrolling further down never selects an earlier frame |
| Rocket2Scroll.ShortContainerShowsFirstFrame | src/components/Rocket2Animation.jsx:256-258 | a container at most half the viewport tall always shows frame 1 |
| Rocket2Scroll.TwoViewportsTallExample | src/components/Rocket2Animation.jsx:247-264 | with an 800-pixel viewport and a 1600-pixel container, 0, 400, 800 and 1600 pixels scrolled select frames 1, 176, 351 and 700 |
| Rocket2Scroll.InViewFramesStopAt630 | src/components/Rocket2Animation.jsx:225-264 | while a container two viewports tall is in view, no frame past 630 is selected |
| Rocket2Scroll.LeavingViewGoesPast630 | src/components/Rocket2Animation.jsx:225-264 | out of view, the same container goes past 630: with the top 1500 pixels above an 800-pixel viewport, frame 657 |
| Rocket2Player.Mounted | src/components/Rocket2Animation.jsx:13-18 | the mounted player is valid, dormant, not started, at frame 1, with an empty cache and loaded set, no plan, and neither ready nor preloading |
| Rocket2Player.StartPreload | src/components/Rocket2Animation.jsx:55-116 | a second start is a no-op; otherwise the cache becomes the old cache with the essential frames loaded into it (by `LoadAll`'s contract: earlier entries kept, only essential frames added, each as its fetch settled), the player is ready whatever their outcome, and the pending plan is the batching of exactly the frames still not loaded |
| Rocket2Player.StartPreloadKeepsValid | src/components/Rocket2Animation.jsx:55-116 | starting the preload keeps the player valid |
| Rocket2Player.DispatchBatch | src/components/Rocket2Animation.jsx:89-106 | after unmount the loop ends without loading; with no batch left nothing changes; otherwise the next batch is loaded into the cache as `LoadAll` does (old entries kept, each new frame as its fetch settled) and dropped from the plan; only the cache and the plan ever change |
| Rocket2Player.NoBatchAfterUnmount | src/components/Rocket2Animation.jsx:90 | after unmount, any number of loop iterations leave the cache unchanged |
| Rocket2Player.DrainCachesPending | src/components/Rocket2Animation.jsx:89-107 | running every pending batch caches every frame they hold |
| Rocket2Player.BackgroundLoadCoversSequence | src/components/Rocket2Animation.jsx:55-116 | without an unmount, starting the preload and running all batches caches every one of the 700 frames |
| Rocket2Player.FreshMountLoadsEverything | src/components/Rocket2Animation.jsx:13-116 | from a fresh mount, starting the preload and running all batches caches every one of the 700 frames |
| Rocket2Player.DrawFrame | src/components/Rocket2Animation.jsx:151-214 | nothing is drawn while dormant or when no stand-in is cached; otherwise the nearest stand-in is drawn with its cached image, covering the canvas, centred, proportional and fitting one side exactly, and the cache becomes the old cache with exactly the uncached frames within 30 of the request loaded into it |
| Rocket2Player.CheckIfActive | src/components/Rocket2Animation.jsx:217-237 | the latch becomes what the shared activation rule gives, so it follows the band and frame 1 is requested only on the first activation; nothing else changes |
| Rocket2Player.HandleScroll | src/components/Rocket2Animation.jsx:240-279 | while active, `frameCountRef` becomes the target frame and a redraw is requested exactly when it changed; dormant, nothing happens |
| Rocket2Player.HandleScrollIdempotent | src/components/Rocket2Animation.jsx:266 | handling the same position twice requests no second redraw |
| Rocket2Player.ResizeRedrawsCurrentFrame | src/components/Rocket2Animation.jsx:282-291 | a resize gives the canvas the window size and keeps frame and latch; dormant, nothing else changes and nothing is drawn; active, exactly one draw happens when the current frame has a cached stand-in: that stand-in's cached image, covering and centred on the new canvas |
| Rocket2Player.CheckInRender | src/components/Rocket2Animation.jsx:228-233 | the activation check's frame-1 request reaches the dormant render's `drawFrame` and draws nothing; only the latch changes |
| Rocket2Player.OnScroll | src/components/Rocket2Animation.jsx:294-300 | the latch follows the activation check; a scroll on a dormant render changes only the latch and draws nothing; an active one moves to the target frame and draws exactly once when the target changed and has a cached stand-in: that stand-in's cached image, after which the cache is the old one with the window around the target loaded; with no draw the cache is unchanged, and the plan and flags are never touched |
| Rocket2Player.Step | src/components/Rocket2Animation.jsx:294-331 | no event evicts or replaces a cached image; each event draws at most once; starting, idle batches and unmount draw nothing |
| Rocket2Player.RerunDrawsCurrentFrame | src/components/Rocket2Animation.jsx:294-319 | once active, the listener effect's re-run draws the current frame's nearest stand-in, if any, with its cached image, covering the resized canvas with one side fitting |
| Rocket2Player.StepKeepsValid | src/components/Rocket2Animation.jsx:119-331 | every event keeps the cache consistent and within 1..700, keeps the plan and the current frame within the sequence, and every image drawn is the cached image of a frame of the sequence, covering the canvas with one side fitting |
| RocketAnimation.LoadFrame | src/components/RocketAnimation.jsx:19-36 | a hit resolves to the cached image; a miss resolves exactly when the fetch succeeds, storing and resolving to the fetched image; a rejection leaves the cache unchanged |
| RocketAnimation.HitIgnoresNetwork | src/components/RocketAnimation.jsx:22-25 | on a hit the network is not consulted |
| RocketAnimation.LoadEach | src/components/RocketAnimation.jsx:42 | all loads resolve exactly when every frame was cached or fetched successfully; exactly those frames end up cached, old entries unchanged and new ones the fetched images |
| RocketAnimation.PreloadInitial | src/components/RocketAnimation.jsx:39-47 | the player becomes ready exactly when frames 1, 250 and 500 are all cached; earlier entries are kept and each newly cached frame holds its fetched image |
| RocketAnimation.ReadyIffInitialFramesLoad | src/components/RocketAnimation.jsx:41-43 | from a fresh mount, the player is ready exactly when all three initial fetches succeed |
| RocketAnimation.DrawFrame | src/components/RocketAnimation.jsx:50-88 | nothing while dormant; otherwise exactly the requested frame is drawn when it is cached or its fetch succeeds, with the cached image on a hit and the fetched one on a miss, covering the canvas, centred, proportional and fitting one side exactly; existing cache entries are kept and no frame other than the requested one is added |
| RocketAnimation.TargetFrame | src/components/RocketAnimation.jsx:122-135 | the frame is NaN exactly when divisor and numerator are both zero, the last frame when only the divisor is zero, and otherwise lies in 1..700 |
| RocketAnimation.CheckIfActive | src/components/RocketAnimation.jsx:91-111 | a no-op until ready; then the latch becomes what the shared activation rule gives, and frame 1 is requested only on the first activation |
| RocketAnimation.HandleScroll | src/components/RocketAnimation.jsx:114-142 | while active, the scroll fails exactly on a NaN target; otherwise `frameCountRef` becomes the target and a redraw is requested exactly when it changed |
| RocketAnimation.Mounted | src/components/RocketAnimation.jsx:7-16 | the mounted player is valid, not ready, dormant and not started, at frame 1 with an empty cache |
| RocketAnimation.ActivatingScrollDrawsNothing | src/components/RocketAnimation.jsx:160-165 | a scroll that activates a dormant player draws nothing and changes only the latch |
| RocketAnimation.ResizeRedrawsCurrentFrame | src/components/RocketAnimation.jsx:145-154 | a resize, or the effect's own `handleResize` call, gives the canvas the window size and keeps frame and latch; dormant, nothing else changes and nothing is drawn; active, the current frame is drawn exactly when it is cached or its fetch succeeds, with that image, covering and centred on the new canvas |
| RocketAnimation.Step | src/components/RocketAnimation.jsx:157-181 | an event fails exactly on an active scroll whose divisor and numerator are both zero; otherwise no cached image is evicted or replaced and at most one draw happens; a scroll sets the latch by the shared activation rule, keeps canvas and readiness, caches at most the new frame, and changes the frame only to its target; an active scroll to a new target draws it exactly when it is cached or its fetch succeeds, with the cached or the fetched image |
| RocketAnimation.SameFrameScrollDrawsNothing | src/components/RocketAnimation.jsx:137-141 | scrolling an active player to the frame it already shows draws nothing |
| RocketAnimation.StepKeepsValid | src/components/RocketAnimation.jsx:39-181 | every event keeps cached frames and the current frame within 1..700, and keeps activation possible only after loading; every image drawn is the cached image of a frame of the sequence, covering the canvas with one side fitting |
| RocketAnimation.NotReadyIgnoresInput | src/components/RocketAnimation.jsx:158 | before the player is ready, scrolling and resizing change nothing and draw nothing |
| RocketAnimation.FailedPreloadStaysDormant | src/components/RocketAnimation.jsx:42-43 | when the initial preload fails, no run of scroll and resize events changes the player or draws |
| Variants.UnguardedAgreesWithGuarded | src/components/RocketAnimation.jsx:128-135 | wherever the divisor is non-zero, the first player's unguarded formula selects the same frame as the progressive player's guarded one |
| Variants.NegativeDivisorFirstFrame | src/components/RocketAnimation.jsx:128-135 | a non-negative numerator over a negative divisor selects frame 1 |
| Variants.HalfViewportContainerDisagrees | src/components/RocketAnimation.jsx:128-129 | a container half the viewport tall, scrolled above the viewport, zeroes the divisor: frame 700 in the first player, frame 1 in the progressive one |
| Variants.ContainerOwnHeightBelowIsNaN | src/components/RocketAnimation.jsx:128-129 | a container taller than the viewport whose top lies its own height down zeroes both divisor and numerator: NaN in the first player, frame 1 in the progressive one |
| Variants.SameSequenceUrls | src/components/RocketLaunch.jsx:5-11 | the first player and the scroll-position player fetch the same address for every frame |
| Variants.DistinctSequences | src/components/Rocket2Animation.jsx:50 | the progressive player's sequence shares no address with the first player's |

## Left out

- Real fetching and image decoding are left out. A fetch is the `Network`
  oracle, and each load settles in one step. In-flight requests, concurrent
  duplicate requests for the same frame, and ordering between settling loads are
  not modelled.
- Timing is left out: `requestIdleCallback`, `setTimeout` fallbacks,
  `requestAnimationFrame` scroll throttling and draw scheduling, and the 50 ms
  delay between batches.
  - A throttled scroll is one `Scroll` event.
  - A scheduled draw happens within its event.
  - The idle-time preload window around a drawn frame is loaded as part of the
    draw.
  - `cancelAnimationFrame` of a superseded draw is not modelled: every requested
    draw is performed.
- Rocket2Player.DrawFrame: the preload window is loaded before the event ends,
  whereas the source defers it to idle time. A later event can therefore find
  frames cached sooner than in the browser.
- RocketAnimation.Step: a NaN target frame ends the run as the `Failed`
  outcome. After that, the source stores NaN in `frameCountRef` and requests a
  frame named `NaN`.
- RocketAnimation.LoadFrame: a failed fetch is the `Rejected` outcome, and the
  model treats it as "not ready" (preload) or "no draw" (`drawFrame`). In the
  source the rejection is not caught. `Promise.all` at RocketAnimation.jsx:42
  and `await loadFrame` at RocketAnimation.jsx:55 turn it into an unhandled
  promise rejection, which the model does not represent.
- RocketLaunch.DrawFrame: a broken slot counts as `complete`, so the source
  clears the canvas and then calls `ctx.drawImage` on the broken image, which
  throws an uncaught `InvalidStateError` in the scroll listener
  (RocketLaunch.jsx:48-68). The model stops at the cleared canvas and does not
  represent the exception.
- FrameUrl.IntDecimal: JavaScript writes integers of magnitude 10^21 or more in
  exponent form. The model writes every integer in plain digits. Frame numbers
  never come near that bound.
- Floating point is modelled as exact real arithmetic. Rounding of the quotient
  and of the cover scale is not modelled. Infinity and NaN appear only where a divisor is
  zero: the first player's scroll quotient, and the scroll-position player's
  scroll fraction.
- `encodeURIComponent` is modelled for ASCII text only. Multi-octet UTF-8
  escapes and lone surrogates do not occur in frame file names.
- Canvas pixel work is not modelled: clearing, the semi-transparent overlay, and
  the contents a draw leaves behind. A draw is the rectangle and image it would
  paint.
- Degenerate sizes are excluded by the types `Picture` and `Screen`:
  zero-sized canvases, and zero-sized images other than the 1x1 placeholder.
- The `currentFrame` React state, CSS, the overlay markup and the component's
  JSX are left out. They do not affect which frame is drawn.
- Missing DOM nodes are not modelled. The `canvasRef`/`containerRef` null checks
  are taken to pass.
- React StrictMode double-invocation of effects is not modelled, and neither is
  a re-mount after unmount.
- In the scroll-position player, the resize listener only changes the canvas
  size. The canvas is a parameter of its draw functions, so the listener has no
  transition of its own. The `complete` flag of each slot is an input: which
  slots have finished loading is left to the browser.
- App.jsx, JourneyAhead.jsx and MoonScrollAnimation.jsx are not part of this
  model. They are page composition and a different animation.

=== FILE: common.dfy ===
/**
 Shared vocabulary of the three image-sequence players: optional values, decoded
 images, the outcome of fetching one frame, the drawing surface, and clamps.
 */
module Common {

  datatype Option<+T> = None | Some(value: T)

  /** A decoded image; only its intrinsic size matters to the players. */
  datatype Image = Image(width: real, height: real)

  /** Images the browser can draw: both sides are positive. */
  type Picture = i: Image | i.width > 0.0 && i.height > 0.0 witness Image(1.0, 1.0)

  /** The 1x1 stand-in that one player stores when a fetch fails. */
  const Placeholder: Picture := Image(1.0, 1.0)

  /** What the network answers for one image request. */
  datatype Fetch = Fetched(image: Picture) | FetchFailed

  /** The network, as seen by the players: every URL has one answer. */
  type Network = string -> Fetch

  /** The canvas backing store, sized to the browser window. */
  datatype Canvas = Canvas(width: real, height: real)

  type Screen = c: Canvas | c.width > 0.0 && c.height > 0.0 witness Canvas(1.0, 1.0)

  function Min(a: int, b: int): int { if a <= b then a else b }

  function Max(a: int, b: int): int { if a >= b then a else b }

  function RMin(a: real, b: real): real { if a <= b then a else b }

  function RMax(a: real, b: real): real { if a >= b then a else b }

  function Abs(a: int): nat { if a < 0 then -a else a }

  // Sign facts about real products that the solver does not find unaided.

  lemma PositiveFactor(x: real, d: real)
    requires d > 0.0 && x * d >= 0.0
    ensures x >= 0.0
    ensures x * d > 0.0 ==> x > 0.0
  {
  }

  lemma DivMonotone(a: real, c: real, d: real)
    requires a <= c && d > 0.0
    ensures a / d <= c / d
  {
    assert (c / d - a / d) * d == c - a;
    PositiveFactor(c / d - a / d, d);
  }

  lemma FactorBelowOne(q: real, d: real, a: real)
    requires d > 0.0 && q * d == a && a <= d
    ensures q <= 1.0
  {
    assert (1.0 - q) * d == d - a;
    PositiveFactor(1.0 - q, d);
  }

  lemma FactorAtLeastOne(q: real, d: real, a: real)
    requires d > 0.0 && q * d == a && a >= d
    ensures q >= 1.0
  {
    assert (q - 1.0) * d == a - d;
    PositiveFactor(q - 1.0, d);
  }
}

=== FILE: cover.dfy ===
/**
 Aspect-fill ("cover") placement of a frame image on the canvas: the image keeps
 its proportions, is scaled so that it covers the whole canvas, and is centred,
 so the overflow is cropped equally on both sides. Two players compute the
 rectangle by comparing aspect ratios; the third by taking the larger of the
 two scale factors. Both computations give the same rectangle.
 */
module Cover {
  import opened Common

  /** Where the image is drawn, in canvas coordinates. */
  datatype Rect = Rect(x: real, y: real, width: real, height: real)

  /** One image drawn on the canvas: which frame, which image, where. */
  datatype Draw = Draw(frame: int, image: Picture, rect: Rect)

  /** The rectangle contains the whole canvas. */
  predicate Covers(r: Rect, c: Canvas)
  {
    r.x <= 0.0 && r.y <= 0.0 && r.x + r.width >= c.width && r.y + r.height >= c.height
  }

  /** The rectangle's centre is the canvas's centre. */
  predicate Centred(r: Rect, c: Canvas)
  {
    2.0 * r.x + r.width == c.width && 2.0 * r.y + r.height == c.height
  }

  /** The rectangle has the image's proportions. */
  predicate KeepsAspect(r: Rect, img: Image)
  {
    r.width * img.height == r.height * img.width
  }

  /** No smaller proportional rectangle covers the canvas: one side fits exactly. */
  predicate Tight(r: Rect, c: Canvas)
  {
    r.width == c.width || r.height == c.height
  }

  /** The image is proportionally wider than the canvas. */
  predicate Wider(c: Screen, img: Picture)
  {
    img.width / img.height > c.width / c.height
  }

  lemma WiderCross(c: Screen, img: Picture)
    ensures Wider(c, img) <==> img.width * c.height > c.width * img.height
  {
    var a := img.width / img.height;
    var b := c.width / c.height;
    assert a * img.height == img.width;
    assert b * c.height == c.width;
    if a > b {
      assert a * (img.height * c.height) > b * (img.height * c.height);
    } else {
      assert a * (img.height * c.height) <= b * (img.height * c.height);
    }
  }

  /** Aspect-ratio comparison placement. */
  function AspectFill(c: Screen, img: Picture): (r: Rect)
    ensures Covers(r, c) && Centred(r, c) && KeepsAspect(r, img) && Tight(r, c)
    ensures Wider(c, img) ==> r.height == c.height && r.y == 0.0 && r.width >= c.width
    ensures !Wider(c, img) ==> r.width == c.width && r.x == 0.0 && r.height >= c.height
  {
    WiderCross(c, img);
    if Wider(c, img) then
      var w := img.width * (c.height / img.height);
      assert w * img.height == img.width * c.height;
      Rect(-(w - c.width) / 2.0, 0.0, w, c.height)
    else
      var h := img.height * (c.width / img.width);
      assert h * img.width == img.height * c.width;
      Rect(0.0, -(h - c.height) / 2.0, c.width, h)
  }

  /** The scale factor that makes the image cover the canvas. */
  function CoverScale(c: Screen, img: Picture): (s: real)
    ensures s > 0.0
    ensures img.width * s >= c.width && img.height * s >= c.height
    ensures img.width * s == c.width || img.height * s == c.height
  {
    var sx := c.width / img.width;
    var sy := c.height / img.height;
    assert img.width * sx == c.width;
    assert img.height * sy == c.height;
    var s := RMax(sx, sy);
    assert img.width * s >= img.width * sx;
    assert img.height * s >= img.height * sy;
    s
  }

  /** Larger-scale-factor placement. */
  function MaxScaleCover(c: Screen, img: Picture): (r: Rect)
    ensures Covers(r, c) && Centred(r, c) && KeepsAspect(r, img) && Tight(r, c)
  {
    var s := CoverScale(c, img);
    Rect((c.width - img.width * s) / 2.0, (c.height - img.height * s) / 2.0,
         img.width * s, img.height * s)
  }

  /** The two placements agree on every canvas and image. */
  lemma AspectFillIsMaxScaleCover(c: Screen, img: Picture)
    ensures AspectFill(c, img) == MaxScaleCover(c, img)
  {
    var sx := c.width / img.width;
    var sy := c.height / img.height;
    WiderCross(c, img);
    assert img.width * sx == c.width;
    assert img.height * sy == c.height;
    var m := MaxScaleCover(c, img);
    if Wider(c, img) {
      assert sy * (img.width * img.height) > sx * (img.width * img.height);
      assert CoverScale(c, img) == sy;
      assert m == Rect((c.width - img.width * sy) / 2.0, 0.0, img.width * sy, c.height);
    } else {
      assert sy * (img.width * img.height) <= sx * (img.width * img.height);
      assert CoverScale(c, img) == sx;
      assert m == Rect(0.0, (c.height - img.height * sx) / 2.0, c.width, img.height * sx);
    }
  }
}

=== FILE: frame_url.dfy ===
/**
 Frame image addresses. Every player names frame `n` of a sequence by the file
 `rocket1 (n).jpg` under a fixed base path, with the space percent-encoded as
 `%20` (section 2.1 of RFC 3986) and the parentheses left as they are. Two players
 write the encoded name literally; the third builds it with the ECMAScript
 function `encodeURIComponent`, modelled here for ASCII text.
 */
module FrameUrl {
  import opened Common

  // ---------------------------------------------------------------------------
  // Decimal notation of a frame number (JavaScript's `${n}` for a non-negative
  // integer below 10^21; larger magnitudes print in exponent form, not modelled)
  // ---------------------------------------------------------------------------

  predicate IsDigit(c: char) { '0' <= c <= '9' }

  predicate AllDigits(s: string) { forall i :: 0 <= i < |s| ==> IsDigit(s[i]) }

  function DigitChar(d: nat): (c: char)
    requires d < 10
    ensures IsDigit(c)
  {
    ('0' as int + d) as char
  }

  /** Shortest decimal notation of `n`: no sign, no leading zeros. */
  function Decimal(n: nat): (s: string)
    ensures |s| >= 1 && AllDigits(s)
    ensures |s| > 1 ==> s[0] != '0'
  {
    if n < 10 then [DigitChar(n)] else Decimal(n / 10) + [DigitChar(n % 10)]
  }

  /** The number a string of decimal digits denotes. */
  function DigitsValue(s: string): nat
    requires AllDigits(s)
  {
    if |s| == 0 then 0
    else DigitsValue(s[..|s| - 1]) * 10 + (s[|s| - 1] as int - '0' as int)
  }

  /** Reading back the decimal notation of `n` yields `n`. */
  lemma {:induction false} DecimalRoundTrip(n: nat)
    ensures DigitsValue(Decimal(n)) == n
  {
    if n >= 10 {
      var s := Decimal(n);
      assert s[..|s| - 1] == Decimal(n / 10);
      DecimalRoundTrip(n / 10);
    }
  }

  /**
   JavaScript's `${i}` for an integer of magnitude below 10^21 (frame indices
   are far smaller): a minus sign before negative numbers.
   */
  function IntDecimal(i: int): string
  {
    if i < 0 then "-" + Decimal(-i) else Decimal(i)
  }

  /** Reads a possibly signed decimal numeral. */
  function ParseInt(s: string): Option<int>
  {
    if |s| >= 2 && s[0] == '-' && AllDigits(s[1..]) then Some(-(DigitsValue(s[1..]) as int))
    else if |s| >= 1 && AllDigits(s) then Some(DigitsValue(s))
    else None
  }

  lemma ParseDigits(s: string)
    requires |s| >= 1 && AllDigits(s)
    ensures ParseInt(s) == Some(DigitsValue(s))
  {
    assert IsDigit(s[0]);
  }

  lemma ParseNegative(d: string)
    requires |d| >= 1 && AllDigits(d)
    ensures ParseInt("-" + d) == Some(-(DigitsValue(d) as int))
  {
    var s := "-" + d;
    assert s[0] == '-' && s[1..] == d;
  }

  lemma IntDecimalRoundTrip(i: int)
    ensures ParseInt(IntDecimal(i)) == Some(i)
  {
    if i < 0 {
      var d := Decimal(-i);
      assert IntDecimal(i) == "-" + d;
      ParseNegative(d);
      DecimalRoundTrip(-i);
      assert DigitsValue(d) == -i;
    } else {
      var d := Decimal(i);
      assert IntDecimal(i) == d;
      ParseDigits(d);
      DecimalRoundTrip(i);
    }
  }

  // ---------------------------------------------------------------------------
  // encodeURIComponent over ASCII text
  // ---------------------------------------------------------------------------

  predicate IsAscii(s: string) { forall i :: 0 <= i < |s| ==> s[i] as int < 128 }

  /** The characters `encodeURIComponent` leaves alone (ECMAScript's uriUnreserved set). */
  predicate Unescaped(c: char)
  {
    || 'A' <= c <= 'Z'
    || 'a' <= c <= 'z'
    || '0' <= c <= '9'
    || c == '-' || c == '_' || c == '.' || c == '!' || c == '~' || c == '*' || c == '\'' || c == '(' || c == ')'
  }

  /** Upper-case hexadecimal digit, as section 2.1 of RFC 3986 recommends. */
  function HexDigit(d: nat): char
    requires d < 16
  {
    if d < 10 then ('0' as int + d) as char else ('A' as int + d - 10) as char
  }

  predicate IsHex(c: char) { '0' <= c <= '9' || 'A' <= c <= 'F' }

  function HexValue(c: char): (d: nat)
    requires IsHex(c)
    ensures d < 16
  {
    if c <= '9' then c as int - '0' as int else c as int - 'A' as int + 10
  }

  /** `%XY` for the single octet of an ASCII character. */
  function PercentEncode(c: char): (s: string)
    requires c as int < 128
    ensures |s| == 3 && s[0] == '%' && IsHex(s[1]) && IsHex(s[2])
    ensures (HexValue(s[1]) * 16 + HexValue(s[2])) as char == c
  {
    "%" + [HexDigit(c as int / 16), HexDigit(c as int % 16)]
  }

  function EncodeChar(c: char): string
    requires c as int < 128
  {
    if Unescaped(c) then [c] else PercentEncode(c)
  }

  function EncodeURIComponent(s: string): (r: string)
    requires IsAscii(s)
    ensures forall i :: 0 <= i < |r| ==> Unescaped(r[i]) || r[i] == '%' || IsHex(r[i])
  {
    if |s| == 0 then "" else EncodeChar(s[0]) + EncodeURIComponent(s[1..])
  }

  /** Percent-decoding of single-octet escapes: the reference inverse of the encoder. */
  function PercentDecode(s: string): string
  {
    if |s| == 0 then ""
    else if s[0] == '%' && |s| >= 3 && IsHex(s[1]) && IsHex(s[2])
    then [(HexValue(s[1]) * 16 + HexValue(s[2])) as char] + PercentDecode(s[3..])
    else [s[0]] + PercentDecode(s[1..])
  }

  /** Decoding reads an unescaped character back as itself... */
  lemma DecodeUnescapedHead(c: char, rest: string)
    requires Unescaped(c)
    ensures PercentDecode([c] + rest) == [c] + PercentDecode(rest)
  {
    assert ([c] + rest)[1..] == rest;
  }

  /** ... and an escape back as the character it encodes. */
  lemma DecodeEscapedHead(c: char, rest: string)
    requires c as int < 128
    ensures PercentDecode(PercentEncode(c) + rest) == [c] + PercentDecode(rest)
  {
    var e := PercentEncode(c);
    assert (e + rest)[3..] == rest;
    assert (e + rest)[..3] == e;
  }

  /** Decoding undoes encoding: distinct names never share an encoding. */
  lemma {:induction false} EncodeDecodeRoundTrip(s: string)
    requires IsAscii(s)
    ensures PercentDecode(EncodeURIComponent(s)) == s
  {
    if |s| > 0 {
      var rest := EncodeURIComponent(s[1..]);
      EncodeDecodeRoundTrip(s[1..]);
      assert EncodeURIComponent(s) == EncodeChar(s[0]) + rest;
      if Unescaped(s[0]) {
        DecodeUnescapedHead(s[0], rest);
      } else {
        DecodeEscapedHead(s[0], rest);
      }
      assert [s[0]] + s[1..] == s;
    }
  }

  /** The encoder works character by character. */
  lemma {:induction false} EncodeAppend(a: string, b: string)
    requires IsAscii(a) && IsAscii(b)
    ensures EncodeURIComponent(a + b) == EncodeURIComponent(a) + EncodeURIComponent(b)
  {
    if |a| > 0 {
      assert (a + b)[0] == a[0];
      assert (a + b)[1..] == a[1..] + b;
      EncodeAppend(a[1..], b);
    } else {
      assert a + b == b;
    }
  }

  predicate AllUnescaped(s: string) { forall i :: 0 <= i < |s| ==> Unescaped(s[i]) }

  /** Text of unescaped characters passes through the encoder unchanged. */
  lemma {:induction false} EncodeUnescaped(s: string)
    requires AllUnescaped(s)
    ensures IsAscii(s)
    ensures EncodeURIComponent(s) == s
  {
    if |s| > 0 {
      EncodeUnescaped(s[1..]);
      assert [s[0]] + s[1..] == s;
    }
  }

  /** Exactly one escaped character between two runs of unescaped ones. */
  lemma EncodeOneEscape(a: string, c: char, z: string)
    requires AllUnescaped(a) && AllUnescaped(z) && c as int < 128 && !Unescaped(c)
    ensures IsAscii(a + [c] + z)
    ensures EncodeURIComponent(a + [c] + z) == a + PercentEncode(c) + z
  {
    EncodeUnescaped(a);
    EncodeUnescaped(z);
    assert [c][1..] == [];
    assert EncodeURIComponent([c]) == PercentEncode(c);
    EncodeAppend(a, [c]);
    EncodeAppend(a + [c], z);
  }

  /** The decimal notation of any integer passes through the encoder unchanged. */
  lemma EncodeIntDecimal(i: int)
    ensures IsAscii(IntDecimal(i))
    ensures EncodeURIComponent(IntDecimal(i)) == IntDecimal(i)
  {
    var s := IntDecimal(i);
    assert AllUnescaped(s) by {
      if i < 0 {
        assert forall k :: 1 <= k < |s| ==> s[k] == Decimal(-i)[k - 1];
      }
    }
    EncodeUnescaped(s);
  }

  // ---------------------------------------------------------------------------
  // Frame file names and URLs
  // ---------------------------------------------------------------------------

  const Prefix: string := "rocket1%20("
  const Suffix: string := ").jpg"

  /** Base path of the sequence the first player and the scroll-position player fetch. */
  const RocketBase: string :=
    "https://akm-img-a-in.tosshub.com/sites/interactive/immersive/ride-on-the-moon/assest/img/rocket/"

  /** Base path of the sequence the progressive player fetches. */
  const Rocket2Base: string :=
    "https://akm-img-a-in.tosshub.com/sites/interactive/immersive/ride-on-the-moon/assest/img/rocket2-desktop/"

  /** Recovers the frame number from a URL made by `TemplateUrl` with base `base`. */
  function ParseTemplateUrl(base: string, url: string): Option<int>
  {
    var head := |base| + |Prefix|;
    if |url| >= head + |Suffix| && url[..|base|] == base && url[|base|..head] == Prefix
       && url[|url| - |Suffix|..] == Suffix
    then ParseInt(url[head..|url| - |Suffix|])
    else None
  }

  /** `base` + `rocket1%20(` + decimal frame number + `).jpg`. */
  function TemplateUrl(base: string, n: int): string
  {
    base + Prefix + IntDecimal(n) + Suffix
  }

  /** The frame number can be read back out of the address built for it. */
  lemma TemplateUrlRoundTrip(base: string, n: int)
    ensures ParseTemplateUrl(base, TemplateUrl(base, n)) == Some(n)
  {
    var d := IntDecimal(n);
    var url := TemplateUrl(base, n);
    var head := |base| + |Prefix|;
    assert url[..|base|] == base;
    assert url[|base|..head] == Prefix;
    assert url[|url| - |Suffix|..] == Suffix;
    assert url[head..|url| - |Suffix|] == d;
    IntDecimalRoundTrip(n);
  }

  /** Distinct frames have distinct URLs. */
  lemma TemplateUrlInjective(base: string, m: int, n: int)
    ensures TemplateUrl(base, m) == TemplateUrl(base, n) ==> m == n
  {
    TemplateUrlRoundTrip(base, m);
    TemplateUrlRoundTrip(base, n);
  }
}

=== FILE: rocket2_cache.dfy ===
/**
 Image cache and frame loader of the progressive player (Rocket2Animation.jsx).
 The cache maps frame numbers to decoded images; beside it the player keeps the
 set of frames whose load has settled. A load never fails: a failed fetch stores
 a 1x1 placeholder, so the cache keys and the settled set always agree.
 */
module Rocket2Cache {
  import opened Common
  import FrameUrl

  /** Number of frames in the sequence. */
  const TotalFrames: nat := 700

  /** `imagesRef` and `loadedFramesRef`. */
  datatype Cache = Cache(images: map<int, Picture>, loaded: set<int>)

  /** The invariant the loader keeps: a frame is cached exactly when it is marked loaded. */
  predicate Consistent(c: Cache)
  {
    c.images.Keys == c.loaded
  }

  const Empty: Cache := Cache(map[], {})

  /** Address of frame `f` of this player's sequence. */
  function FrameAddress(f: int): string
  {
    FrameUrl.TemplateUrl(FrameUrl.Rocket2Base, f)
  }

  /** The image a load of `f` settles with when it goes to the network. */
  function Settle(net: Network, f: int): Picture
  {
    match net(FrameAddress(f))
    case Fetched(img) => img
    case FetchFailed => Placeholder
  }

  /**
   `loadImage(f)`: the cached image on a hit; otherwise the fetched image, or the
   placeholder when the fetch fails, stored under `f` and marked loaded.
   */
  function LoadImage(c: Cache, f: int, net: Network): (r: (Cache, Picture))
    ensures f in r.0.images && r.0.images[f] == r.1
    ensures f in c.images ==> r == (c, c.images[f])
    ensures f !in c.images ==> r.1 == Settle(net, f) && r.0.loaded == c.loaded + {f}
    ensures r.0.images.Keys == c.images.Keys + {f}
    ensures forall k :: k in c.images ==> r.0.images[k] == c.images[k]
    ensures Consistent(c) ==> Consistent(r.0) && f in r.0.loaded
  {
    if f in c.images then (c, c.images[f])
    else
      var img := Settle(net, f);
      (Cache(c.images[f := img], c.loaded + {f}), img)
  }

  /** On a cache hit the network is not consulted: any two networks give the same result. */
  lemma HitIgnoresNetwork(c: Cache, f: int, net1: Network, net2: Network)
    requires f in c.images
    ensures LoadImage(c, f, net1) == LoadImage(c, f, net2)
    ensures LoadImage(c, f, net1).0 == c
  {
  }

  /** Loading is idempotent: loading the same frame again changes nothing. */
  lemma LoadImageIdempotent(c: Cache, f: int, net: Network)
    ensures LoadImage(LoadImage(c, f, net).0, f, net) == LoadImage(c, f, net)
  {
  }

  /** Loads of `frames`, each settling before the next starts. */
  function LoadAll(c: Cache, frames: seq<int>, net: Network): (r: Cache)
    ensures forall k :: k in r.images <==> k in c.images || k in frames
    ensures forall k :: k in r.loaded <==> k in c.loaded || (k in frames && k !in c.images)
    ensures forall k :: k in c.images ==> r.images[k] == c.images[k]
    ensures forall k :: k in frames && k !in c.images ==> r.images[k] == Settle(net, k)
    ensures Consistent(c) ==> Consistent(r)
    decreases |frames|
  {
    if |frames| == 0 then c
    else LoadAll(LoadImage(c, frames[0], net).0, frames[1..], net)
  }
}

=== FILE: rocket2_player.dfy ===
/**
 The progressive player (Rocket2Animation.jsx) as a state record with one
 transition per handler: start of background preloading, dispatch of one
 background batch, unmount, activation check, scroll and resize. A transition
 that asks for a redraw names the frame; `Redraw` then performs the draw, which
 selects a cached image, places it with aspect-fill and preloads the frames
 around the requested one.
 */
module Rocket2Player {
  import opened Common
  import opened Viewport
  import opened Cover
  import opened Rocket2Cache
  import opened Rocket2Schedule
  import opened Rocket2Render
  import Rocket2Scroll

  datatype Player = Player(
    cache: Cache,               // imagesRef, loadedFramesRef
    pending: seq<seq<int>>,     // background batches not yet dispatched
    frameCount: int,            // frameCountRef: the frame last asked for by scrolling
    ready: bool,                // isLoaded
    latch: Latch,               // isActive, hasStartedRef
    preloading: bool,           // isPreloadingRef
    canvas: Screen)

  predicate InSequence(f: int) { 1 <= f <= TotalFrames }

  predicate Framed(s: seq<int>) { forall k :: k in s ==> InSequence(k) }

  /** What every reachable player state satisfies. */
  predicate Valid(p: Player)
  {
    && Consistent(p.cache)
    && (forall k :: k in p.cache.images ==> InSequence(k))
    && (forall i :: 0 <= i < |p.pending| ==> Framed(p.pending[i]))
    && InSequence(p.frameCount)
    && LatchValid(p.latch)
  }

  /** The state right after mounting, with the canvas sized to the window. */
  function Mounted(canvas: Screen): (p: Player)
    ensures Valid(p) && p.frameCount == 1 && !p.latch.active && !p.latch.started
    ensures p.cache.images == map[] && p.cache.loaded == {} && p.pending == []
    ensures !p.ready && !p.preloading && p.canvas == canvas
  {
    Player(Empty, [], 1, false, Latch(false, false), false, canvas)
  }

  // ---------------------------------------------------------------------------
  // Background loading
  // ---------------------------------------------------------------------------

  /**
   `preloadAllFramesInBackground`: a no-op while already running; otherwise the
   essential frames are loaded into the cache (`LoadAll`: earlier entries kept,
   new ones as the network settles them), the player is ready whatever their
   outcome, and the frames still not loaded are planned as batches of 15.
   */
  function StartPreload(p: Player, net: Network): (r: Player)
    ensures p.preloading ==> r == p
    ensures !p.preloading ==> r.ready && r.preloading
    ensures !p.preloading ==> r.cache == LoadAll(p.cache, EssentialFrames(TotalFrames), net)
    ensures !p.preloading ==> forall f :: f in EssentialFrames(TotalFrames) ==> f in r.cache.images
    ensures !p.preloading ==> r.pending == Batches(Remaining(r.cache.loaded, TotalFrames))
    ensures !p.preloading ==> Flatten(r.pending) == Remaining(r.cache.loaded, TotalFrames)
    ensures r.latch == p.latch && r.frameCount == p.frameCount && r.canvas == p.canvas
  {
    if p.preloading then p
    else
      var c := LoadAll(p.cache, EssentialFrames(TotalFrames), net);
      var plan := Batches(Remaining(c.loaded, TotalFrames));
      p.(cache := c, pending := plan, ready := true, preloading := true)
  }

  lemma StartPreloadKeepsValid(p: Player, net: Network)
    requires Valid(p)
    ensures Valid(StartPreload(p, net))
  {
    if !p.preloading {
      var c := LoadAll(p.cache, EssentialFrames(TotalFrames), net);
      BatchesFramed(Batches(Remaining(c.loaded, TotalFrames)));
    }
  }

  /** Batches of frames of the sequence hold only frames of the sequence. */
  lemma {:induction false} BatchesFramed(bs: seq<seq<int>>)
    requires Framed(Flatten(bs))
    ensures forall i :: 0 <= i < |bs| ==> Framed(bs[i])
  {
    if |bs| > 0 {
      BatchesFramed(bs[1..]);
      forall i | 1 <= i < |bs|
        ensures Framed(bs[i])
      {
        assert bs[i] == bs[1..][i - 1];
      }
    }
  }

  /** One iteration of the background loop: stop if unmounted, else load the next batch. */
  function DispatchBatch(p: Player, net: Network): (r: Player)
    ensures !p.preloading ==> r == p.(pending := [])
    ensures p.preloading && |p.pending| > 0 ==>
              && r.pending == p.pending[1..]
              && forall k :: k in r.cache.images <==> k in p.cache.images || k in p.pending[0]
    ensures p.preloading && |p.pending| > 0 ==> r.cache == LoadAll(p.cache, p.pending[0], net)
    ensures p.preloading && |p.pending| == 0 ==> r == p
    ensures forall k :: k in p.cache.images ==> k in r.cache.images && r.cache.images[k] == p.cache.images[k]
    ensures r == p.(cache := r.cache, pending := r.pending)
    ensures r.latch == p.latch && r.frameCount == p.frameCount && r.preloading == p.preloading
    ensures Valid(p) ==> Valid(r)
  {
    if !p.preloading then p.(pending := [])
    else if |p.pending| == 0 then p
    else
      assert Framed(p.pending[0]) <== Valid(p);
      p.(cache := LoadAll(p.cache, p.pending[0], net), pending := p.pending[1..])
  }

  /** The cleanup of the preloading effect: clear the preloading flag. */
  function Unmount(p: Player): (r: Player)
    ensures !r.preloading && r == p.(preloading := false)
  {
    p.(preloading := false)
  }

  /** `k` background iterations. */
  function Drain(p: Player, k: nat, net: Network): Player
    decreases k
  {
    if k == 0 then p else Drain(DispatchBatch(p, net), k - 1, net)
  }

  /** After unmounting, no batch is dispatched: the cache stays as it was. */
  lemma {:induction false} NoBatchAfterUnmount(p: Player, k: nat, net: Network)
    ensures Drain(Unmount(p), k, net).cache == p.cache
    decreases k
  {
    if k > 0 {
      NoBatchAfterUnmount(DispatchBatch(Unmount(p), net).(preloading := true), k - 1, net);
    }
  }

  /** Dispatching every pending batch caches every frame they hold. */
  lemma {:induction false} DrainCachesPending(p: Player, net: Network)
    requires p.preloading
    ensures forall f :: f in p.cache.images || f in Flatten(p.pending)
                        ==> f in Drain(p, |p.pending|, net).cache.images
    decreases |p.pending|
  {
    if |p.pending| > 0 {
      var q := DispatchBatch(p, net);
      DrainCachesPending(q, net);
      assert Flatten(p.pending) == p.pending[0] + Flatten(p.pending[1..]);
    }
  }

  /**
   Unless the player unmounts, starting the preload and running every batch
   leaves all frames of the sequence cached.
   */
  lemma BackgroundLoadCoversSequence(p: Player, net: Network)
    requires Valid(p) && !p.preloading
    ensures var q := StartPreload(p, net);
            forall f :: InSequence(f) ==> f in Drain(q, |q.pending|, net).cache.images
  {
    var q := StartPreload(p, net);
    StartPreloadKeepsValid(p, net);
    DrainCachesPending(q, net);
  }

  /** In particular, a freshly mounted player ends up with the whole sequence cached. */
  lemma FreshMountLoadsEverything(canvas: Screen, net: Network)
    ensures var q := StartPreload(Mounted(canvas), net);
            forall f :: InSequence(f) ==> f in Drain(q, |q.pending|, net).cache.images
  {
    BackgroundLoadCoversSequence(Mounted(canvas), net);
  }

  // ---------------------------------------------------------------------------
  // Drawing
  // ---------------------------------------------------------------------------

  /**
   `drawFrame(f)`: nothing while dormant; otherwise the image of `f` or of its
   nearest cached neighbour, placed to cover the canvas, after which the frames
   around `f` are requested. Nothing is drawn when no stand-in is cached.
   */
  function DrawFrame(p: Player, f: int, net: Network): (r: (Player, Option<Draw>))
    ensures r.1.Some? <==> p.latch.active && Nearest(p.cache.images, f, TotalFrames).Some?
    ensures r.1.Some? ==>
              var d := r.1.value;
              && d.frame == Nearest(p.cache.images, f, TotalFrames).value
              && d.frame in p.cache.images && d.image == p.cache.images[d.frame]
              && Covers(d.rect, p.canvas) && Centred(d.rect, p.canvas) && KeepsAspect(d.rect, d.image)
              && Tight(d.rect, p.canvas)
    ensures r.1.Some? ==> r.0.cache == LoadAll(p.cache, PreloadRequests(p.cache, f, TotalFrames), net)
    ensures Valid(p) && r.1.Some? ==>
              forall x :: (Max(1, f - PreloadRange) <= x <= Min(TotalFrames, f + PreloadRange))
                          ==> x in r.0.cache.images
    ensures r.1.None? ==> r.0 == p
    ensures forall k :: k in p.cache.images ==> k in r.0.cache.images && r.0.cache.images[k] == p.cache.images[k]
    ensures r.0 == p.(cache := r.0.cache)
    ensures Valid(p) ==> Valid(r.0)
  {
    if !p.latch.active then (p, None)
    else
      match Nearest(p.cache.images, f, TotalFrames)
      case None => (p, None)
      case Some(g) =>
        var img := p.cache.images[g];
        var c := LoadAll(p.cache, PreloadRequests(p.cache, f, TotalFrames), net);
        (p.(cache := c), Some(Draw(g, img, AspectFill(p.canvas, img))))
  }

  /** Performs a redraw request, if any. */
  function Redraw(p: Player, request: Option<int>, net: Network): (r: (Player, Option<Draw>))
    ensures request.None? ==> r == (p, None)
    ensures request.Some? ==> r == DrawFrame(p, request.value, net)
  {
    match request
    case None => (p, None)
    case Some(f) => DrawFrame(p, f, net)
  }

  // ---------------------------------------------------------------------------
  // Event handlers
  // ---------------------------------------------------------------------------

  /** `checkIfActive`: follows the 80/20 band and asks for frame 1 on the first activation. */
  function CheckIfActive(p: Player, b: Box, vh: real): (r: (Player, Option<int>))
    ensures r.0.latch == Check(p.latch, InView(b, vh)).0
    ensures r.0.latch.active == InView(b, vh)
    ensures r.1.Some? <==> InView(b, vh) && !p.latch.active && !p.latch.started
    ensures r.1.Some? ==> r.1.value == 1
    ensures r.0 == p.(latch := r.0.latch)
    ensures Valid(p) ==> Valid(r.0)
  {
    var (l, first) := Check(p.latch, InView(b, vh));
    (p.(latch := l), if first then Some(1) else None)
  }

  /**
   `handleScroll`: while active, a redraw is requested exactly when the target
   frame differs from `frameCountRef`, which is then set to the target.
   */
  function HandleScroll(p: Player, b: Box, vh: real): (r: (Player, Option<int>))
    ensures !p.latch.active ==> r == (p, None)
    ensures p.latch.active ==> r.0.frameCount == Rocket2Scroll.TargetFrame(b, vh)
    ensures r.1.Some? <==> p.latch.active && Rocket2Scroll.TargetFrame(b, vh) != p.frameCount
    ensures r.1.Some? ==> r.1.value == r.0.frameCount
    ensures r.0 == p.(frameCount := r.0.frameCount)
    ensures Valid(p) ==> Valid(r.0)
  {
    if !p.latch.active then (p, None)
    else
      var t := Rocket2Scroll.TargetFrame(b, vh);
      if t != p.frameCount then (p.(frameCount := t), Some(t)) else (p, None)
  }

  /** The same scroll position handled twice asks for no second redraw. */
  lemma HandleScrollIdempotent(p: Player, b: Box, vh: real)
    ensures var q := HandleScroll(p, b, vh).0;
            HandleScroll(q, b, vh) == (q, None)
  {
  }

  /** `handleResize`: resize the canvas; while active, redraw `frameCountRef`. */
  function HandleResize(p: Player, size: Screen): (r: (Player, Option<int>))
    ensures r.0 == p.(canvas := size)
    ensures r.1 == (if p.latch.active then Some(p.frameCount) else None)
    ensures Valid(p) ==> Valid(r.0)
  {
    (p.(canvas := size), if p.latch.active then Some(p.frameCount) else None)
  }

  // ---------------------------------------------------------------------------
  // The player as a whole
  // ---------------------------------------------------------------------------

  /**
   The handlers close over the state of the last render: `isActive` in them is
   the committed value, and `setIsActive` takes effect at the next render. The
   listener effect depends on `isActive`, so every change of it re-runs the
   effect, which calls `handleResize` and `checkIfActive` again (`Setup`).
   */
  datatype Event =
    | Start                                   // the preloading effect runs
    | Idle                                    // the background loop gets its turn
    | Setup(size: Screen, box: Box, vh: real) // the listener effect runs (mount, or isActive changed)
    | Scroll(box: Box, vh: real)              // a (throttled) scroll event
    | Resize(size: Screen)                    // the window was resized
    | Stop                                    // the preloading effect is cleaned up

  function DrawList(d: Option<Draw>): seq<Draw>
  {
    match d
    case None => []
    case Some(x) => [x]
  }

  /**
   `checkIfActive` as a handler of render `p` runs it: the latch change is kept
   for the next render, and the frame-1 request goes to the `drawFrame` of the
   same render, which still sees the player dormant and draws nothing.
   */
  function CheckInRender(p: Player, b: Box, vh: real, net: Network): (r: (Player, seq<Draw>))
    ensures r.0 == p.(latch := Check(p.latch, InView(b, vh)).0)
    ensures r.1 == []
  {
    var (pc, req) := CheckIfActive(p, b, vh);
    var (p0, d) := Redraw(p, req, net);
    (p0.(latch := pc.latch), DrawList(d))
  }

  /**
   The scroll listener: the activation check, then the scroll handler if the
   render was active. A scroll that activates a dormant player draws nothing; an
   active player moves to the target frame and draws at most once, the nearest
   stand-in of that frame, and only when the target changed.
   */
  function OnScroll(p: Player, b: Box, vh: real, net: Network): (r: (Player, seq<Draw>))
    ensures r.0.latch == Check(p.latch, InView(b, vh)).0
    ensures !p.latch.active ==> r == (p.(latch := r.0.latch), [])
    ensures p.latch.active ==> r.0.frameCount == Rocket2Scroll.TargetFrame(b, vh)
    ensures r.0.canvas == p.canvas && |r.1| <= 1
    ensures |r.1| == 1 ==>
              var t := Rocket2Scroll.TargetFrame(b, vh);
              && p.latch.active && t != p.frameCount
              && Nearest(p.cache.images, t, TotalFrames).Some?
              && r.1[0].frame == Nearest(p.cache.images, t, TotalFrames).value
    ensures var t := Rocket2Scroll.TargetFrame(b, vh);
            p.latch.active && t != p.frameCount && Nearest(p.cache.images, t, TotalFrames).Some?
            ==> |r.1| == 1
    ensures r.0 == p.(latch := r.0.latch, frameCount := r.0.frameCount, cache := r.0.cache)
    ensures |r.1| == 1 ==>
              && r.1[0].image == p.cache.images[r.1[0].frame]
              && r.0.cache == LoadAll(p.cache, PreloadRequests(p.cache, Rocket2Scroll.TargetFrame(b, vh), TotalFrames), net)
    ensures |r.1| == 0 ==> r.0.cache == p.cache
  {
    var (pc, d1) := CheckInRender(p, b, vh, net);
    if p.latch.active then
      var (p2, req) := HandleScroll(p, b, vh);
      var (p3, d2) := Redraw(p2, req, net);
      (p3.(latch := pc.latch), d1 + DrawList(d2))
    else (pc, d1)
  }

  /** One event. No event evicts or replaces a cached image, and each draws at most once. */
  function Step(p: Player, e: Event, net: Network): (r: (Player, seq<Draw>))
    ensures forall k :: k in p.cache.images ==> k in r.0.cache.images && r.0.cache.images[k] == p.cache.images[k]
    ensures |r.1| <= 1
    ensures e.Start? || e.Idle? || e.Stop? ==> r.1 == []
  {
    match e
    case Start => (StartPreload(p, net), [])
    case Idle => (DispatchBatch(p, net), [])
    case Setup(size, b, vh) =>
      var (p1, req) := HandleResize(p, size);
      var (p2, d) := Redraw(p1, req, net);
      var (p3, d1) := CheckInRender(p2, b, vh, net);
      (p3, DrawList(d) + d1)
    case Scroll(b, vh) => OnScroll(p, b, vh, net)
    case Resize(size) =>
      var (p1, req) := HandleResize(p, size);
      var (p2, d) := Redraw(p1, req, net);
      (p2, DrawList(d))
    case Stop => (Unmount(p), [])
  }

  /**
   A resize takes the new window size; while dormant it draws nothing, and while
   active it draws the current frame's nearest stand-in, if any, on the new canvas.
   */
  lemma ResizeRedrawsCurrentFrame(p: Player, size: Screen, net: Network)
    ensures var (q, ds) := Step(p, Resize(size), net);
            var n := Nearest(p.cache.images, p.frameCount, TotalFrames);
            && q.canvas == size && q.frameCount == p.frameCount && q.latch == p.latch
            && (!p.latch.active ==> q == p.(canvas := size) && ds == [])
            && |ds| <= 1
            && (|ds| == 1 <==> p.latch.active && n.Some?)
            && (|ds| == 1 ==> && ds[0].frame == n.value && ds[0].image == p.cache.images[n.value]
                              && Covers(ds[0].rect, size) && Centred(ds[0].rect, size))
  {
  }

  /**
   The effect re-run that follows an activation draws the current frame, or its
   nearest cached neighbour, onto the resized canvas.
   */
  lemma RerunDrawsCurrentFrame(p: Player, size: Screen, b: Box, vh: real, net: Network)
    requires Valid(p) && p.latch.active
    ensures var (q, ds) := Step(p, Setup(size, b, vh), net);
            var n := Nearest(p.cache.images, p.frameCount, TotalFrames);
            && (|ds| == 1 <==> n.Some?)
            && (n.None? ==> ds == [])
            && (n.Some? ==> && ds[0].frame == n.value && ds[0].image == p.cache.images[n.value]
                            && Covers(ds[0].rect, size) && Tight(ds[0].rect, size))
  {
    var (p1, req) := HandleResize(p, size);
    assert p1.cache == p.cache && p1.latch.active && req == Some(p.frameCount);
  }

  /** A drawn image is a cached frame of the sequence, covering the canvas it was drawn on. */
  predicate GoodDraw(d: Draw, p: Player)
  {
    && InSequence(d.frame)
    && d.frame in p.cache.images && d.image == p.cache.images[d.frame]
    && Covers(d.rect, p.canvas) && Centred(d.rect, p.canvas) && KeepsAspect(d.rect, d.image)
    && Tight(d.rect, p.canvas)
  }

  /**
   Every event keeps the player valid (cache keys equal the loaded set, only
   frames 1..700 are cached, `frameCountRef` is a frame of the sequence), and
   every image it draws is a frame of the sequence that covers the canvas.
   */
  lemma StepKeepsValid(p: Player, e: Event, net: Network)
    requires Valid(p)
    ensures Valid(Step(p, e, net).0)
    ensures forall d :: d in Step(p, e, net).1 ==> GoodDraw(d, Step(p, e, net).0)
  {
    match e
    case Start => StartPreloadKeepsValid(p, net);
    case Setup(size, b, vh) => SetupKeepsValid(p, size, b, vh, net);
    case Scroll(b, vh) => OnScrollKeepsValid(p, b, vh, net);
    case Resize(size) =>
      var (p1, req) := HandleResize(p, size);
      RedrawKeepsValid(p1, req, net);
    case _ =>
  }

  lemma SetupKeepsValid(p: Player, size: Screen, b: Box, vh: real, net: Network)
    requires Valid(p)
    ensures var (q, ds) := Step(p, Setup(size, b, vh), net);
            Valid(q) && forall d :: d in ds ==> GoodDraw(d, q)
  {
    var (p1, req) := HandleResize(p, size);
    var (p2, d) := Redraw(p1, req, net);
    RedrawKeepsValid(p1, req, net);
    CheckInRenderKeepsValid(p2, b, vh, net);
    assert DrawList(d) + [] == DrawList(d);
    assert Step(p, Setup(size, b, vh), net) == (CheckInRender(p2, b, vh, net).0, DrawList(d));
  }

  /** A redraw keeps the player valid, keeps its canvas, and draws only good images. */
  lemma RedrawKeepsValid(p: Player, request: Option<int>, net: Network)
    requires Valid(p)
    ensures var (q, d) := Redraw(p, request, net);
            Valid(q) && q.canvas == p.canvas && (d.Some? ==> GoodDraw(d.value, q))
  {
  }

  lemma CheckInRenderKeepsValid(p: Player, b: Box, vh: real, net: Network)
    requires Valid(p)
    ensures Valid(CheckInRender(p, b, vh, net).0)
    ensures CheckInRender(p, b, vh, net).0.canvas == p.canvas
  {
    var (l, _) := Check(p.latch, InView(b, vh));
    assert LatchValid(l);
  }

  /** Replacing the latch by a valid one keeps the player valid and its draws good. */
  lemma WithLatchKeepsValid(p: Player, l: Latch)
    requires Valid(p) && LatchValid(l)
    ensures Valid(p.(latch := l))
  {
  }

  lemma OnScrollKeepsValid(p: Player, b: Box, vh: real, net: Network)
    requires Valid(p)
    ensures var (q, ds) := OnScroll(p, b, vh, net);
            Valid(q) && forall d :: d in ds ==> GoodDraw(d, q)
  {
    var (pc, d1) := CheckInRender(p, b, vh, net);
    CheckInRenderKeepsValid(p, b, vh, net);
    if p.latch.active {
      var (p2, req) := HandleScroll(p, b, vh);
      var (p3, d2) := Redraw(p2, req, net);
      RedrawKeepsValid(p2, req, net);
      WithLatchKeepsValid(p3, pc.latch);
      var q := p3.(latch := pc.latch);
      assert [] + DrawList(d2) == DrawList(d2);
      assert OnScroll(p, b, vh, net) == (q, DrawList(d2));
      assert q.canvas == p3.canvas;
    }
  }
}

=== FILE: rocket2_render.dfy ===
/**
 Frame selection of the progressive player (Rocket2Animation.jsx): which cached
 image stands in for the requested frame, and which neighbouring frames are
 requested after a draw.
 */
module Rocket2Render {
  import opened Common
  import opened Rocket2Cache
  import opened Rocket2Schedule

  /** Offsets 1 .. SearchLimit-1 are tried on either side of a missing frame. */
  const SearchLimit: int := 30

  /** Frames within this distance of a drawn frame are requested afterwards. */
  const PreloadRange: int := 30

  /**
   `g` is a neighbour the search looks at for frame `f` of `n`: at an offset
   between 1 and 29, not below frame 1 on the lower side, not past `n` on the upper.
   */
  predicate Neighbour(f: int, n: int, g: int)
  {
    && 1 <= Abs(g - f) < SearchLimit
    && (g < f ==> g >= 1)
    && (g > f ==> g <= n)
  }

  /** `g` is at least as good a stand-in for `f` as `h`: nearer, or as near and lower. */
  predicate AtLeastAsNear(f: int, g: int, h: int)
  {
    Abs(g - f) < Abs(h - f) || (Abs(g - f) == Abs(h - f) && g <= h)
  }

  /** The outward search from offset `d`: lower neighbour first, then upper. */
  function SearchFrom(images: map<int, Picture>, f: int, n: int, d: int): (r: Option<int>)
    requires 1 <= d <= SearchLimit
    ensures r.Some? ==> r.value in images && Neighbour(f, n, r.value) && Abs(r.value - f) >= d
    ensures r.Some? ==> forall g :: g in images && Neighbour(f, n, g) && Abs(g - f) >= d
                                    ==> AtLeastAsNear(f, r.value, g)
    ensures r.None? ==> forall g :: g in images && Neighbour(f, n, g) ==> Abs(g - f) < d
    decreases SearchLimit - d
  {
    if d == SearchLimit then None
    else if f - d >= 1 && f - d in images then Some(f - d)
    else if f + d <= n && f + d in images then Some(f + d)
    else SearchFrom(images, f, n, d + 1)
  }

  /**
   The frame whose image is drawn for requested frame `f`: `f` itself when cached,
   else the nearest cached neighbour (the lower one on a tie), else none.
   */
  function Nearest(images: map<int, Picture>, f: int, n: int): (r: Option<int>)
    ensures f in images ==> r == Some(f)
    ensures r.Some? ==> r.value in images
    ensures f !in images && r.Some? ==>
              && Neighbour(f, n, r.value)
              && forall g :: g in images && Neighbour(f, n, g) ==> AtLeastAsNear(f, r.value, g)
    ensures r.None? <==> f !in images && forall g :: g in images ==> !Neighbour(f, n, g)
  {
    if f in images then Some(f) else SearchFrom(images, f, n, 1)
  }

  /** With frames 340 and 360 cached, frame 351 is drawn from 360, nine frames away. */
  lemma NearestExample()
    ensures Nearest(map[340 := Placeholder, 360 := Placeholder], 351, 700) == Some(360)
  {
    var images := map[340 := Placeholder, 360 := Placeholder];
    assert Neighbour(351, 700, 360);
    assert 360 in images;
  }

  /** With frames 350 and 352 cached, frame 351 is drawn from the lower one. */
  lemma NearestTieExample()
    ensures Nearest(map[350 := Placeholder, 352 := Placeholder], 351, 700) == Some(350)
  {
    var images := map[350 := Placeholder, 352 := Placeholder];
    assert Neighbour(351, 700, 350);
    assert 350 in images;
  }

  /**
   Frames requested after drawing around `center`: those in
   [max(1, center-30), min(n, center+30)] neither marked loaded nor cached.
   */
  function PreloadRequests(c: Cache, center: int, n: int): (r: seq<int>)
    ensures forall x :: x in r <==>
              Max(1, center - PreloadRange) <= x <= Min(n, center + PreloadRange)
              && x !in c.loaded && x !in c.images
    ensures forall i :: 0 <= i < |r| ==> 1 <= r[i] <= n
  {
    Missing(c.loaded + c.images.Keys, Max(1, center - PreloadRange), Min(n, center + PreloadRange))
  }
}

=== FILE: rocket2_schedule.dfy ===
/**
 Loading plan of the progressive player (Rocket2Animation.jsx): a short list of
 essential frames loaded first, then every frame not yet loaded, in ascending
 order, cut into batches of 15 that are dispatched one after another.
 */
module Rocket2Schedule {
  import opened Common

  const BatchSize: nat := 15

  /** The entries of `s` within [lo, hi], in their original order. */
  function KeepInRange(s: seq<int>, lo: int, hi: int): (r: seq<int>)
    ensures forall x :: x in r <==> x in s && lo <= x <= hi
    ensures |r| <= |s|
  {
    if |s| == 0 then []
    else (if lo <= s[0] <= hi then [s[0]] else []) + KeepInRange(s[1..], lo, hi)
  }

  /** First frames, then 10%, 25%, 50%, 75% and 100% of the sequence. */
  function EssentialCandidates(n: nat): seq<int>
  {
    [1, 2, 3, 4, 5, 10, 15, 20, 25,
     (n as real * 0.1).Floor,
     (n as real * 0.25).Floor,
     (n as real * 0.5).Floor,
     (n as real * 0.75).Floor,
     n]
  }

  /** The essential frames: the candidates that are frame numbers of the sequence. */
  function EssentialFrames(n: nat): (r: seq<int>)
    ensures forall x :: x in r ==> 1 <= x <= n
    ensures n >= 1 ==> 1 in r && n in r
    ensures forall x :: x in r <==> x in EssentialCandidates(n) && 1 <= x <= n
  {
    KeepInRange(EssentialCandidates(n), 1, n)
  }

  /** Filtering a list already within range leaves it as it is. */
  lemma {:induction false} KeepInRangeAllIn(s: seq<int>, lo: int, hi: int)
    requires forall i :: 0 <= i < |s| ==> lo <= s[i] <= hi
    ensures KeepInRange(s, lo, hi) == s
  {
    if |s| > 0 {
      KeepInRangeAllIn(s[1..], lo, hi);
      assert [s[0]] + s[1..] == s;
    }
  }

  lemma EssentialFramesOf700()
    ensures EssentialFrames(700) == [1, 2, 3, 4, 5, 10, 15, 20, 25, 70, 175, 350, 525, 700]
  {
    assert (700 as real * 0.1).Floor == 70;
    assert (700 as real * 0.25).Floor == 175;
    assert (700 as real * 0.5).Floor == 350;
    assert (700 as real * 0.75).Floor == 525;
    var c := EssentialCandidates(700);
    assert c == [1, 2, 3, 4, 5, 10, 15, 20, 25, 70, 175, 350, 525, 700];
    KeepInRangeAllIn(c, 1, 700);
  }

  /** The frames lo..hi not in `excluded`, in ascending order. */
  function Missing(excluded: set<int>, lo: int, hi: int): (r: seq<int>)
    ensures forall x :: x in r <==> lo <= x <= hi && x !in excluded
    ensures forall i :: 0 <= i < |r| ==> lo <= r[i] <= hi
    ensures forall i, j :: 0 <= i < j < |r| ==> r[i] < r[j]
    decreases hi - lo
  {
    if hi < lo then []
    else Missing(excluded, lo, hi - 1) + (if hi in excluded then [] else [hi])
  }

  /** The background work list: frames 1..n not yet loaded, in ascending order. */
  function Remaining(loaded: set<int>, n: nat): (r: seq<int>)
    ensures forall x :: x in r <==> 1 <= x <= n && x !in loaded
    ensures forall i, j :: 0 <= i < j < |r| ==> r[i] < r[j]
  {
    Missing(loaded, 1, n)
  }

  function Flatten(bs: seq<seq<int>>): seq<int>
  {
    if |bs| == 0 then [] else bs[0] + Flatten(bs[1..])
  }

  lemma FlattenCons(b: seq<int>, bs: seq<seq<int>>)
    ensures Flatten([b] + bs) == b + Flatten(bs)
  {
    assert ([b] + bs)[1..] == bs;
  }

  /**
   `s` cut into consecutive batches: each batch non-empty, every batch but the
   last exactly `BatchSize` long, and together they give back `s`.
   */
  function Batches(s: seq<int>): (r: seq<seq<int>>)
    ensures Flatten(r) == s
    ensures forall k :: 0 <= k < |r| ==> 0 < |r[k]| <= BatchSize
    ensures forall k :: 0 <= k < |r| - 1 ==> |r[k]| == BatchSize
    decreases |s|
  {
    if |s| == 0 then []
    else if |s| <= BatchSize then
      FlattenCons(s, []);
      [s]
    else
      var rest := Batches(s[BatchSize..]);
      FlattenCons(s[..BatchSize], rest);
      assert s[..BatchSize] + s[BatchSize..] == s;
      [s[..BatchSize]] + rest
  }

  lemma SliceOfSuffix(s: seq<int>, m: nat, a: nat, b: nat)
    requires m <= |s| && a <= b <= |s| - m
    ensures s[m..][a..b] == s[m + a..m + b]
  {
  }

  /** Batch `k` is `s.slice(15k, 15k + 15)`: the slice from `15k`, cut at the end of `s`. */
  lemma {:induction false} BatchIsSlice(s: seq<int>, k: nat)
    requires k < |Batches(s)|
    ensures k * BatchSize < |s|
    ensures Batches(s)[k] == s[k * BatchSize .. Min(k * BatchSize + BatchSize, |s|)]
    decreases |s|
  {
    if |s| > BatchSize && k > 0 {
      var t := s[BatchSize..];
      BatchIsSlice(t, k - 1);
      assert Batches(s) == [s[..BatchSize]] + Batches(t);
      var lo := (k - 1) * BatchSize;
      var hi := Min(lo + BatchSize, |t|);
      assert lo + BatchSize == k * BatchSize;
      assert hi + BatchSize == Min(k * BatchSize + BatchSize, |s|);
      SliceOfSuffix(s, BatchSize, lo, hi);
    }
  }

  /** There are exactly ceil(|s| / 15) batches. */
  lemma {:induction false} BatchCount(s: seq<int>)
    ensures |s| <= |Batches(s)| * BatchSize < |s| + BatchSize
    decreases |s|
  {
    if |s| > BatchSize {
      BatchCount(s[BatchSize..]);
      assert |Batches(s)| == 1 + |Batches(s[BatchSize..])|;
    }
  }
}

=== FILE: rocket2_scroll.dfy ===
/**
 Scroll-to-frame mapping of the progressive player (Rocket2Animation.jsx): the
 part of the container that has scrolled above the viewport, divided by a
 guarded divisor, gives a progress value in [0, 1]; progress selects one of the
 700 frames, clamped to [1, 700].
 */
module Rocket2Scroll {
  import opened Common
  import opened Viewport
  import opened Rocket2Cache

  /** Scroll progress; 0 when the divisor is not positive. */
  function Progress(b: Box, vh: real): (p: real)
    ensures 0.0 <= p <= 1.0
    ensures Denominator(b, vh) <= 0.0 || b.top >= 0.0 ==> p == 0.0
    ensures b.top < 0.0 && Denominator(b, vh) > 0.0 && -b.top <= Denominator(b, vh)
            ==> p * Denominator(b, vh) == -b.top
    ensures b.top < 0.0 && Denominator(b, vh) > 0.0 && -b.top >= Denominator(b, vh) ==> p == 1.0
  {
    var d := Denominator(b, vh);
    if d > 0.0 then
      var q := VisibleTop(b) / d;
      assert q * d == VisibleTop(b);
      assert q >= 0.0;
      assert VisibleTop(b) <= d ==> q <= 1.0 by {
        if VisibleTop(b) <= d {
          FactorBelowOne(q, d, VisibleTop(b));
        }
      }
      assert VisibleTop(b) >= d ==> q >= 1.0 by {
        if VisibleTop(b) >= d {
          FactorAtLeastOne(q, d, VisibleTop(b));
        }
      }
      RMax(0.0, RMin(1.0, q))
    else 0.0
  }

  /**
   Frame `f` is shown for progress in [(f-1)/700, f/700); the last frame also for
   progress 1.
   */
  predicate ShowsProgress(f: int, p: real)
  {
    && (f - 1) as real <= p * TotalFrames as real
    && (p * TotalFrames as real < f as real || (p == 1.0 && f == TotalFrames))
  }

  /** Frame for a progress value: `min(700, max(1, floor(p*700) + 1))`. */
  function FrameForProgress(p: real): (f: int)
    requires 0.0 <= p <= 1.0
    ensures 1 <= f <= TotalFrames
    ensures ShowsProgress(f, p)
  {
    var x := p * TotalFrames as real;
    assert x == TotalFrames as real ==> p == 1.0;
    ClampFrameWithin(x, TotalFrames);
    ClampFrame(x, TotalFrames)
  }

  /** The target frame for the container's position. */
  function TargetFrame(b: Box, vh: real): (f: int)
    ensures 1 <= f <= TotalFrames
    ensures ShowsProgress(f, Progress(b, vh))
    ensures Denominator(b, vh) <= 0.0 || b.top >= 0.0 ==> f == 1
  {
    FrameForProgress(Progress(b, vh))
  }

  /** Higher progress never selects an earlier frame. */
  lemma FrameForProgressMonotone(p: real, q: real)
    requires 0.0 <= p <= q <= 1.0
    ensures FrameForProgress(p) <= FrameForProgress(q)
  {
    ClampFrameMonotone(p * TotalFrames as real, q * TotalFrames as real, TotalFrames);
  }

  /** For a container of fixed height, scrolling further down never decreases progress. */
  lemma ProgressMonotone(b1: Box, b2: Box, vh: real)
    requires b1.height == b2.height && b1.top <= b2.top
    ensures Progress(b2, vh) <= Progress(b1, vh)
  {
    if b2.top < 0.0 {
      DenominatorAboveTop(b1, vh);
      DenominatorAboveTop(b2, vh);
      var d := Denominator(b1, vh);
      if d > 0.0 {
        DivMonotone(VisibleTop(b2), VisibleTop(b1), d);
      }
    }
  }

  /** ... so it never goes back a frame. */
  lemma TargetFrameMonotone(b1: Box, b2: Box, vh: real)
    requires b1.height == b2.height && b1.top <= b2.top
    ensures TargetFrame(b1, vh) >= TargetFrame(b2, vh)
  {
    ProgressMonotone(b1, b2, vh);
    FrameForProgressMonotone(Progress(b2, vh), Progress(b1, vh));
  }

  /** A container at most half the viewport tall always shows frame 1. */
  lemma ShortContainerShowsFirstFrame(b: Box, vh: real)
    requires b.height <= vh / 2.0
    ensures TargetFrame(b, vh) == 1
  {
    if b.top < 0.0 {
      DenominatorAboveTop(b, vh);
    }
  }

  /**
   With an 800-pixel viewport and a container twice that tall the divisor is the
   container height, 1600: 400 pixels past the top select frame 176, 800 pixels
   frame 351, and the full container height frame 700.
   */
  lemma TwoViewportsTallExample()
    ensures TargetFrame(Box(0.0, 1600.0), 800.0) == 1
    ensures TargetFrame(Box(-400.0, 1600.0), 800.0) == 176
    ensures TargetFrame(Box(-800.0, 1600.0), 800.0) == 351
    ensures TargetFrame(Box(-1600.0, 1600.0), 800.0) == 700
  {
    assert Progress(Box(-400.0, 1600.0), 800.0) == 0.25;
    assert Progress(Box(-800.0, 1600.0), 800.0) == 0.5;
    assert Progress(Box(-1600.0, 1600.0), 800.0) == 1.0;
  }

  /**
   The 630 bound needs the container in view: a scroll that takes it out of the
   band, handled by a render that was still active, goes further. With the top
   1500 pixels above an 800-pixel viewport, frame 657 is selected.
   */
  lemma LeavingViewGoesPast630()
    ensures !InView(Box(-1500.0, 1600.0), 800.0)
    ensures TargetFrame(Box(-1500.0, 1600.0), 800.0) == 657
  {
    assert Progress(Box(-1500.0, 1600.0), 800.0) == 0.9375;
  }

  /**
   While a container two viewports tall is in view, its bottom is below 20% of the
   viewport, so progress stays under 0.9 and scrolling never selects a frame past
   630 of 700.
   */
  lemma InViewFramesStopAt630(b: Box, vh: real)
    requires vh > 0.0 && b.height == 2.0 * vh && InView(b, vh)
    ensures TargetFrame(b, vh) <= 630
  {
    var p := Progress(b, vh);
    if b.top < 0.0 {
      DenominatorAboveTop(b, vh);
      assert Denominator(b, vh) == 2.0 * vh;
      assert -b.top < 1.8 * vh;
      assert p * (2.0 * vh) == -b.top;
      assert (0.9 - p) * (2.0 * vh) > 0.0;
      PositiveFactor(0.9 - p, 2.0 * vh);
      assert p < 0.9;
    }
    assert p * 700.0 < 630.0;
  }
}

=== FILE: rocket_animation.dfy ===
/**
 The first player (RocketAnimation.jsx). It caches only successful loads: a
 failed fetch rejects and leaves the cache as it was. It becomes ready only when
 frames 1, 250 and 500 all load, and attaches its scroll and resize listeners only
 then. Its scroll progress divides without guarding against a zero divisor; the
 model reports the resulting NaN frame as an explicit outcome.
 */
module RocketAnimation {
  import opened Common
  import opened Viewport
  import opened Cover
  import FrameUrl

  const TotalFrames: nat := 700

  /** Start, middle and end frames loaded before the player is ready. */
  const InitialFrames: seq<int> := [1, 250, 500]

  function FrameAddress(f: int): string
  {
    FrameUrl.TemplateUrl(FrameUrl.RocketBase, f)
  }

  /** How the promise returned by `loadFrame` settles. */
  datatype Settled = Resolved(image: Picture) | Rejected

  /**
   `loadFrame(f)`: the cached image on a hit, with no request; otherwise the
   fetched image, stored under `f`; a failed fetch rejects and stores nothing.
   */
  function LoadFrame(images: map<int, Picture>, f: int, net: Network): (r: (map<int, Picture>, Settled))
    ensures f in images ==> r == (images, Resolved(images[f]))
    ensures f !in images ==> (r.1.Resolved? <==> net(FrameAddress(f)).Fetched?)
    ensures f !in images && net(FrameAddress(f)).Fetched? ==>
              var img := net(FrameAddress(f)).image;
              r == (images[f := img], Resolved(img))
    ensures r.1.Resolved? <==> f in r.0
    ensures r.1.Resolved? ==> r.0[f] == r.1.image
    ensures r.1.Rejected? ==> r.0 == images
    ensures r.0.Keys <= images.Keys + {f}
    ensures forall k :: k in images ==> k in r.0 && r.0[k] == images[k]
  {
    if f in images then (images, Resolved(images[f]))
    else
      match net(FrameAddress(f))
      case Fetched(img) => (images[f := img], Resolved(img))
      case FetchFailed => (images, Rejected)
  }

  /** On a cache hit the network is not consulted. */
  lemma HitIgnoresNetwork(images: map<int, Picture>, f: int, net1: Network, net2: Network)
    requires f in images
    ensures LoadFrame(images, f, net1) == LoadFrame(images, f, net2)
  {
  }

  /** Loads every frame of `frames`; the flag tells whether all of them resolved. */
  function LoadEach(images: map<int, Picture>, frames: seq<int>, net: Network): (r: (map<int, Picture>, bool))
    ensures r.1 <==> forall f :: f in frames ==> f in r.0
    ensures r.1 <==> forall f :: f in frames ==> f in images || net(FrameAddress(f)).Fetched?
    ensures forall k :: k in r.0 <==> k in images || (k in frames && net(FrameAddress(k)).Fetched?)
    ensures forall k :: k in images ==> r.0[k] == images[k]
    ensures forall k :: k in r.0 && k !in images ==> r.0[k] == net(FrameAddress(k)).image
    decreases |frames|
  {
    if |frames| == 0 then (images, true)
    else
      var (m, s) := LoadFrame(images, frames[0], net);
      var (m', ok) := LoadEach(m, frames[1..], net);
      assert forall g :: g in frames <==> g == frames[0] || g in frames[1..];
      (m', s.Resolved? && ok)
  }

  datatype Player = Player(
    images: map<int, Picture>,  // imagesRef
    loaded: bool,               // isLoaded
    latch: Latch,               // isActive, hasStartedRef
    frameCount: int,            // frameCountRef
    canvas: Screen)

  function Mounted(canvas: Screen): (p: Player)
    ensures Valid(p) && !p.loaded && !p.latch.active && !p.latch.started
    ensures p.images == map[] && p.frameCount == 1 && p.canvas == canvas
  {
    Player(map[], false, Latch(false, false), 1, canvas)
  }

  /**
   The initial preload effect: `Promise.all` over frames 1, 250 and 500. The
   player becomes ready only if all three resolve; frames that did load stay cached.
   */
  function PreloadInitial(p: Player, net: Network): (r: Player)
    ensures r.loaded <==> p.loaded || forall f :: f in InitialFrames ==> f in r.images
    ensures forall k :: k in r.images <==> k in p.images || (k in InitialFrames && net(FrameAddress(k)).Fetched?)
    ensures forall k :: k in p.images ==> r.images[k] == p.images[k]
    ensures forall k :: k in r.images && k !in p.images ==> r.images[k] == net(FrameAddress(k)).image
    ensures r.latch == p.latch && r.frameCount == p.frameCount && r.canvas == p.canvas
  {
    var (m, ok) := LoadEach(p.images, InitialFrames, net);
    p.(images := m, loaded := p.loaded || ok)
  }

  /** From a fresh mount, the player is ready exactly when all three initial fetches succeed. */
  lemma ReadyIffInitialFramesLoad(canvas: Screen, net: Network)
    ensures PreloadInitial(Mounted(canvas), net).loaded <==>
            && net(FrameAddress(1)).Fetched?
            && net(FrameAddress(250)).Fetched?
            && net(FrameAddress(500)).Fetched?
  {
    var (m, ok) := LoadEach(map[], InitialFrames, net);
    assert PreloadInitial(Mounted(canvas), net).loaded == ok;
    assert ok <==> forall f :: f in InitialFrames ==> net(FrameAddress(f)).Fetched?;
    assert InitialFrames[0] == 1 && InitialFrames[1] == 250 && InitialFrames[2] == 500;
  }

  /**
   `drawFrame(f)`: nothing while dormant; otherwise load `f` (from the cache when
   present) and, if it resolves, draw it to cover the canvas.
   */
  function DrawFrame(p: Player, f: int, net: Network): (r: (Player, Option<Draw>))
    ensures !p.latch.active ==> r == (p, None)
    ensures r.1.Some? <==> p.latch.active && (f in p.images || net(FrameAddress(f)).Fetched?)
    ensures r.1.Some? ==>
              && r.1.value.frame == f && f in r.0.images && r.1.value.image == r.0.images[f]
              && Covers(r.1.value.rect, p.canvas) && Centred(r.1.value.rect, p.canvas)
              && KeepsAspect(r.1.value.rect, r.1.value.image) && Tight(r.1.value.rect, p.canvas)
    ensures r.1.Some? ==>
              r.1.value.image == (if f in p.images then p.images[f] else net(FrameAddress(f)).image)
    ensures r.1.None? ==> r.0 == p
    ensures r.0 == p.(images := r.0.images)
    ensures r.0.images.Keys <= p.images.Keys + {f}
    ensures forall k :: k in p.images ==> k in r.0.images && r.0.images[k] == p.images[k]
  {
    if !p.latch.active then (p, None)
    else
      var (m, s) := LoadFrame(p.images, f, net);
      match s
      case Rejected => (p, None)
      case Resolved(img) => (p.(images := m), Some(Draw(f, img, AspectFill(p.canvas, img))))
  }

  /**
   The frame for the container's position. The quotient is unguarded: with a zero
   divisor, a positive numerator gives +Infinity, which the clamp turns into the
   last frame, and a zero numerator gives NaN, reported as `None`.
   */
  function TargetFrame(b: Box, vh: real): (r: Option<int>)
    ensures r.None? <==> Denominator(b, vh) == 0.0 && VisibleTop(b) == 0.0
    ensures r.Some? ==> 1 <= r.value <= TotalFrames
    ensures Denominator(b, vh) == 0.0 && VisibleTop(b) > 0.0 ==> r == Some(TotalFrames)
  {
    var d := Denominator(b, vh);
    if d == 0.0 then (if VisibleTop(b) == 0.0 then None else Some(TotalFrames))
    else Some(ClampFrame(Quotient(b, vh) * TotalFrames as real, TotalFrames))
  }

  /** `checkIfActive`: a no-op until ready; then the shared 80/20 activation rule. */
  function CheckIfActive(p: Player, b: Box, vh: real): (r: (Player, Option<int>))
    ensures !p.loaded ==> r == (p, None)
    ensures p.loaded ==> r.0.latch == Check(p.latch, InView(b, vh)).0
    ensures p.loaded ==> r.0.latch.active == InView(b, vh)
    ensures r.1.Some? <==> p.loaded && InView(b, vh) && !p.latch.active && !p.latch.started
    ensures r.1.Some? ==> r.1.value == 1
    ensures r.0 == p.(latch := r.0.latch)
  {
    if !p.loaded then (p, None)
    else
      var (l, first) := Check(p.latch, InView(b, vh));
      (p.(latch := l), if first then Some(1) else None)
  }

  /** Outcome of the scroll handler; `NotANumber` when the target frame is NaN. */
  datatype Scrolled = Handled(player: Player, request: Option<int>) | NotANumber

  /**
   `handleScroll`: while active, a redraw is requested exactly when the target
   frame differs from `frameCountRef`, which is then set to it.
   */
  function HandleScroll(p: Player, b: Box, vh: real): (r: Scrolled)
    ensures !p.latch.active ==> r == Handled(p, None)
    ensures r.NotANumber? <==> p.latch.active && Denominator(b, vh) == 0.0 && VisibleTop(b) == 0.0
    ensures r.Handled? && p.latch.active ==>
              var t := TargetFrame(b, vh).value;
              && r.player == p.(frameCount := t)
              && (r.request.Some? <==> t != p.frameCount)
              && (r.request.Some? ==> r.request.value == t)
  {
    if !p.latch.active then Handled(p, None)
    else
      match TargetFrame(b, vh)
      case None => NotANumber
      case Some(t) => if t != p.frameCount then Handled(p.(frameCount := t), Some(t)) else Handled(p, None)
  }

  /** `handleResize`: resize the canvas; while active, redraw `frameCountRef`. */
  function HandleResize(p: Player, size: Screen): (r: (Player, Option<int>))
    ensures r.0 == p.(canvas := size)
    ensures r.1 == (if p.latch.active then Some(p.frameCount) else None)
  {
    (p.(canvas := size), if p.latch.active then Some(p.frameCount) else None)
  }

  function Redraw(p: Player, request: Option<int>, net: Network): (Player, seq<Draw>)
  {
    match request
    case None => (p, [])
    case Some(f) =>
      var (q, d) := DrawFrame(p, f, net);
      (q, if d.Some? then [d.value] else [])
  }

  /**
   `Resize` is both the resize listener and the listener effect's own call of
   `handleResize`: the effect depends on `isActive`, so it re-runs, and redraws,
   after every activation change.
   */
  datatype Event = Start | Scroll(box: Box, vh: real) | Resize(size: Screen)

  /** Result of one event: the new state and what was drawn, or a NaN target frame. */
  datatype Outcome = Done(player: Player, draws: seq<Draw>) | Failed

  /**
   One event. The scroll and resize listeners exist only once the player is
   ready; before that those events change nothing. The handlers see `isActive`
   as of the last render, `p`: the frame-1 request of the activation check
   reaches a `drawFrame` that finds the player dormant, and the scroll handler
   runs when the render was active, whatever the check just decided. So no
   event draws twice, and an active scroll to a new frame draws that frame
   whenever it is cached or its fetch succeeds.
   */
  function Step(p: Player, e: Event, net: Network): (r: Outcome)
    ensures r.Failed? <==>
              e.Scroll? && p.loaded && p.latch.active
              && Denominator(e.box, e.vh) == 0.0 && VisibleTop(e.box) == 0.0
    ensures r.Done? ==> forall k :: k in p.images ==> k in r.player.images && r.player.images[k] == p.images[k]
    ensures r.Done? ==> |r.draws| <= 1
    ensures r.Done? ==> r.player.frameCount == p.frameCount
                        || (e.Scroll? && TargetFrame(e.box, e.vh) == Some(r.player.frameCount))
    ensures e.Scroll? && p.loaded && p.latch.active && TargetFrame(e.box, e.vh).Some?
            && TargetFrame(e.box, e.vh).value != p.frameCount ==>
              var t := TargetFrame(e.box, e.vh).value;
              && r.Done?
              && (|r.draws| == 1 <==> t in p.images || net(FrameAddress(t)).Fetched?)
              && (|r.draws| == 1 ==> r.draws[0].frame == t)
              && (|r.draws| == 1 ==>
                    r.draws[0].image == (if t in p.images then p.images[t] else net(FrameAddress(t)).image))
    ensures e.Scroll? && p.loaded && r.Done? ==>
              && r.player.latch == Check(p.latch, InView(e.box, e.vh)).0
              && r.player.canvas == p.canvas && r.player.loaded == p.loaded
              && r.player.images.Keys <= p.images.Keys + {r.player.frameCount}
  {
    match e
    case Start => Done(PreloadInitial(p, net), [])
    case Scroll(b, vh) =>
      if !p.loaded then Done(p, [])
      else
        var (pc, req1) := CheckIfActive(p, b, vh);
        var (p0, d1) := Redraw(p, req1, net);
        if !p.latch.active then Done(p0.(latch := pc.latch), d1)
        else (
          match HandleScroll(p0, b, vh)
          case NotANumber => Failed
          case Handled(p3, req2) =>
            var (p4, d2) := Redraw(p3, req2, net);
            Done(p4.(latch := pc.latch), d1 + d2))
    case Resize(size) =>
      if !p.loaded then Done(p, [])
      else
        var (p1, req) := HandleResize(p, size);
        var (p2, d) := Redraw(p1, req, net);
        Done(p2, d)
  }

  /**
   A scroll that brings a dormant player into view activates it but draws
   nothing; the effect re-run that follows draws (`ResizeRedrawsCurrentFrame`).
   */
  lemma ActivatingScrollDrawsNothing(p: Player, b: Box, vh: real, net: Network)
    requires p.loaded && !p.latch.active
    ensures Step(p, Scroll(b, vh), net) == Done(p.(latch := Check(p.latch, InView(b, vh)).0), [])
  {
  }

  /**
   A resize takes the new window size; while dormant it draws nothing, and while
   active it draws the current frame, unchanged, on the new canvas: from the
   cache, or fetched when its fetch succeeds.
   */
  lemma ResizeRedrawsCurrentFrame(p: Player, size: Screen, net: Network)
    requires p.loaded
    ensures Step(p, Resize(size), net).Done?
    ensures var q := Step(p, Resize(size), net).player;
            q.canvas == size && q.frameCount == p.frameCount && q.latch == p.latch
    ensures !p.latch.active ==> Step(p, Resize(size), net) == Done(p.(canvas := size), [])
    ensures var ds := Step(p, Resize(size), net).draws;
            var f := p.frameCount;
            && |ds| <= 1
            && (|ds| == 1 <==> p.latch.active && (f in p.images || net(FrameAddress(f)).Fetched?))
            && (|ds| == 1 ==>
                  && ds[0].frame == f
                  && ds[0].image == (if f in p.images then p.images[f] else net(FrameAddress(f)).image)
                  && Covers(ds[0].rect, size) && Centred(ds[0].rect, size))
  {
  }

  /**
   Scrolling an active player through a position it already shows draws
   nothing and changes nothing but the latch.
   */
  lemma SameFrameScrollDrawsNothing(p: Player, b: Box, vh: real, net: Network)
    requires p.loaded && p.latch.active && TargetFrame(b, vh) == Some(p.frameCount)
    ensures Step(p, Scroll(b, vh), net) == Done(p.(latch := Check(p.latch, InView(b, vh)).0), [])
  {
  }

  predicate InSequence(f: int) { 1 <= f <= TotalFrames }

  /**
   What every reachable state satisfies: only frames of the sequence are cached,
   `frameCountRef` is one of them, and only a ready player is ever active.
   */
  predicate Valid(p: Player)
  {
    && (forall k :: k in p.images ==> InSequence(k))
    && InSequence(p.frameCount)
    && LatchValid(p.latch)
    && (p.latch.started ==> p.loaded)
  }

  /** A drawn image is the cached image of a frame of the sequence, covering the canvas it was drawn on. */
  predicate GoodDraw(d: Draw, p: Player)
  {
    && InSequence(d.frame)
    && d.frame in p.images && d.image == p.images[d.frame]
    && Covers(d.rect, p.canvas) && Centred(d.rect, p.canvas) && KeepsAspect(d.rect, d.image)
    && Tight(d.rect, p.canvas)
  }

  lemma RedrawKeepsValid(p: Player, request: Option<int>, net: Network)
    requires Valid(p) && (request.Some? ==> InSequence(request.value))
    ensures var (q, ds) := Redraw(p, request, net);
            Valid(q) && q.canvas == p.canvas && q.loaded == p.loaded && q.latch == p.latch
            && q.frameCount == p.frameCount && forall d :: d in ds ==> GoodDraw(d, q)
  {
  }

  lemma ScrollKeepsValid(p: Player, b: Box, vh: real, net: Network)
    requires Valid(p) && p.loaded
    ensures var r := Step(p, Scroll(b, vh), net);
            r.Done? ==> Valid(r.player) && forall d :: d in r.draws ==> GoodDraw(d, r.player)
  {
    var (pc, req1) := CheckIfActive(p, b, vh);
    var (p0, d1) := Redraw(p, req1, net);
    RedrawKeepsValid(p, req1, net);
    assert LatchValid(pc.latch);
    if p.latch.active {
      match HandleScroll(p0, b, vh)
      case NotANumber =>
      case Handled(p3, req2) =>
        RedrawKeepsValid(p3, req2, net);
    }
  }

  /** Every event keeps the player valid, and every image it draws covers the canvas. */
  lemma StepKeepsValid(p: Player, e: Event, net: Network)
    requires Valid(p)
    ensures var r := Step(p, e, net);
            r.Done? ==> Valid(r.player) && forall d :: d in r.draws ==> GoodDraw(d, r.player)
  {
    match e
    case Start =>
      assert forall k :: k in InitialFrames ==> InSequence(k);
    case Scroll(b, vh) =>
      if p.loaded {
        ScrollKeepsValid(p, b, vh, net);
      }
    case Resize(size) =>
      if p.loaded {
        var (p1, req) := HandleResize(p, size);
        RedrawKeepsValid(p1, req, net);
      }
  }

  /** Until the player is ready, scrolling and resizing neither change it nor draw. */
  lemma NotReadyIgnoresInput(p: Player, e: Event, net: Network)
    requires !p.loaded && !e.Start?
    ensures Step(p, e, net) == Done(p, [])
  {
  }

  /** When the initial preload fails the player never activates, whatever is scrolled. */
  lemma {:induction false} FailedPreloadStaysDormant(p: Player, es: seq<Event>, net: Network)
    requires !p.loaded
    requires forall i :: 0 <= i < |es| ==> !es[i].Start?
    ensures Run(p, es, net) == Done(p, [])
    decreases |es|
  {
    if |es| > 0 {
      NotReadyIgnoresInput(p, es[0], net);
      FailedPreloadStaysDormant(p, es[1..], net);
    }
  }

  /** A sequence of events, stopping at the first NaN target frame. */
  function Run(p: Player, es: seq<Event>, net: Network): Outcome
    decreases |es|
  {
    if |es| == 0 then Done(p, [])
    else
      match Step(p, es[0], net)
      case Failed => Failed
      case Done(q, d) =>
        match Run(q, es[1..], net)
        case Failed => Failed
        case Done(q', d') => Done(q', d + d')
  }
}

=== FILE: rocket_launch.dfy ===
/**
 The scroll-position player (RocketLaunch.jsx): 500 image slots created up
 front, the page's scroll fraction mapped to a 0-based slot index, and the slot's
 image drawn scaled by the larger of the two cover factors and centred.
 */
module RocketLaunch {
  import opened Common
  import opened Cover
  import opened FrameUrl

  const TotalFrames: nat := 500

  /** The unencoded head of a frame file name: the space is still a space. */
  const NameHead: string := "rocket1 ("

  /** `rocket1 (<i>).jpg`, before encoding. */
  function FileName(i: int): string
  {
    NameHead + IntDecimal(i) + Suffix
  }

  /** The address of frame `i`: the base path followed by the encoded file name. */
  function GetImageUrl(i: int): (url: string)
    ensures url == TemplateUrl(RocketBase, i)
  {
    EncodedUnderBase(RocketBase, i);
    RocketBase + EncodeURIComponent(FileName(i))
  }

  /** Under any base path, the encoded file name gives the template address. */
  lemma EncodedUnderBase(base: string, i: int)
    ensures IsAscii(FileName(i)) && base + EncodeURIComponent(FileName(i)) == TemplateUrl(base, i)
  {
    EncodeFileName(i);
    var d := IntDecimal(i);
    assert base + (Prefix + d + Suffix) == base + Prefix + d + Suffix;
  }

  /** The head is `rocket1`, a space, and an opening parenthesis. */
  lemma NameHeadParts()
    ensures AllUnescaped("rocket1") && AllUnescaped("(")
    ensures NameHead == "rocket1" + [' '] + "("
    ensures Prefix == "rocket1" + PercentEncode(' ') + "("
  {
    assert PercentEncode(' ') == "%20";
  }

  /** Only the space of the head is escaped, as `%20`. */
  lemma EncodeNameHead()
    ensures IsAscii(NameHead) && EncodeURIComponent(NameHead) == Prefix
  {
    NameHeadParts();
    EncodeOneEscape("rocket1", ' ', "(");
  }

  /** `).jpg` passes unchanged. */
  lemma EncodeSuffix()
    ensures IsAscii(Suffix) && EncodeURIComponent(Suffix) == Suffix
  {
    var z := ").jpg";
    assert AllUnescaped(z);
    EncodeUnescaped(z);
  }

  lemma EncodeConcat3(a: string, d: string, z: string)
    requires IsAscii(a) && IsAscii(d) && IsAscii(z)
    ensures IsAscii(a + d + z)
    ensures EncodeURIComponent(a + d + z)
            == EncodeURIComponent(a) + EncodeURIComponent(d) + EncodeURIComponent(z)
  {
    EncodeAppend(a, d);
    EncodeAppend(a + d, z);
  }

  /** The encoded file name is `rocket1%20(<i>).jpg`: the digits and `).jpg` pass unchanged. */
  lemma EncodeFileName(i: int)
    ensures IsAscii(FileName(i))
    ensures EncodeURIComponent(FileName(i)) == Prefix + IntDecimal(i) + Suffix
  {
    var d := IntDecimal(i);
    EncodeIntDecimal(i);
    EncodeSuffix();
    EncodeNameHead();
    EncodeConcat3(NameHead, d, Suffix);
  }

  /** Distinct frame numbers get distinct addresses. */
  lemma GetImageUrlInjective(i: int, j: int)
    ensures GetImageUrl(i) == GetImageUrl(j) ==> i == j
  {
    TemplateUrlInjective(RocketBase, i, j);
  }

  // ---------------------------------------------------------------------------
  // Image slots
  // ---------------------------------------------------------------------------

  /** `complete` with a decoded image, still loading, or complete but broken. */
  datatype Status = Loading | Complete(image: Picture) | Broken

  datatype Slot = Slot(url: string, status: Status)

  /** The preload loop: slot k requests frame k+1. */
  method PreloadSlots() returns (slots: seq<Slot>)
    ensures |slots| == TotalFrames
    ensures forall k :: 0 <= k < |slots| ==> slots[k] == Slot(GetImageUrl(k + 1), Loading)
  {
    slots := [];
    var i := 1;
    while i <= TotalFrames
      invariant 1 <= i <= TotalFrames + 1
      invariant |slots| == i - 1
      invariant forall k :: 0 <= k < |slots| ==> slots[k] == Slot(GetImageUrl(k + 1), Loading)
    {
      slots := slots + [Slot(GetImageUrl(i), Loading)];
      i := i + 1;
    }
  }

  /** No two slots request the same image. */
  lemma SlotUrlsDistinct(slots: seq<Slot>, k: int, m: int)
    requires forall j :: 0 <= j < |slots| ==> slots[j] == Slot(GetImageUrl(j + 1), Loading)
    requires 0 <= k < |slots| && 0 <= m < |slots| && k != m
    ensures slots[k].url != slots[m].url
  {
    GetImageUrlInjective(k + 1, m + 1);
  }

  // ---------------------------------------------------------------------------
  // Scroll position to slot index
  // ---------------------------------------------------------------------------

  /**
   `min(499, floor(scrollTop / maxScroll * 500))`. With `maxScroll` zero the
   quotient is NaN or -Infinity, which index no slot (`None`), or +Infinity,
   which the cap turns into 499. No lower clamp: a negative scroll position over
   a positive range gives a negative index.
   */
  function FrameIndex(scrollTop: real, maxScroll: real): (r: Option<int>)
    ensures r.None? <==> maxScroll == 0.0 && scrollTop <= 0.0
    ensures maxScroll == 0.0 && scrollTop > 0.0 ==> r == Some(TotalFrames - 1)
    ensures r.Some? ==> r.value <= TotalFrames - 1
    ensures r.Some? && r.value < TotalFrames - 1 ==>
              r.value as real <= scrollTop / maxScroll * TotalFrames as real < r.value as real + 1.0
    ensures maxScroll > 0.0 && 0.0 <= scrollTop <= maxScroll ==> r.Some? && 0 <= r.value
    ensures maxScroll > 0.0 && scrollTop == maxScroll ==> r == Some(TotalFrames - 1)
    ensures r == Some(TotalFrames - 1) && maxScroll != 0.0 ==>
              scrollTop / maxScroll * TotalFrames as real >= (TotalFrames - 1) as real
  {
    if maxScroll == 0.0 then (if scrollTop > 0.0 then Some(TotalFrames - 1) else None)
    else
      var q := scrollTop / maxScroll;
      assert maxScroll > 0.0 && scrollTop == maxScroll ==> q == 1.0;
      assert maxScroll > 0.0 && 0.0 <= scrollTop ==> q >= 0.0 by {
        if maxScroll > 0.0 && 0.0 <= scrollTop {
          assert q * maxScroll == scrollTop;
          PositiveFactor(q, maxScroll);
        }
      }
      Some(Min(TotalFrames - 1, (q * TotalFrames as real).Floor))
  }

  /** Scrolling further down never selects an earlier slot. */
  lemma FrameIndexMonotone(s1: real, s2: real, maxScroll: real)
    requires maxScroll > 0.0 && s1 <= s2
    ensures FrameIndex(s1, maxScroll).value <= FrameIndex(s2, maxScroll).value
  {
    var q1 := s1 / maxScroll;
    var q2 := s2 / maxScroll;
    assert q1 * maxScroll == s1 && q2 * maxScroll == s2;
    assert (q2 - q1) * maxScroll == s2 - s1;
    PositiveFactor(q2 - q1, maxScroll);
    assert q1 * TotalFrames as real <= q2 * TotalFrames as real;
  }

  // ---------------------------------------------------------------------------
  // Drawing
  // ---------------------------------------------------------------------------

  /** What a draw call does to the canvas. */
  datatype Painted = Untouched | Cleared | Painted(draw: Draw)

  /**
   `drawFrame(index)`: nothing when the slot is missing or not complete; a complete
   slot clears the canvas and draws its image covering it, centred. A broken image
   leaves the canvas cleared.
   */
  function DrawFrame(slots: seq<Slot>, index: int, canvas: Screen): (r: Painted)
    ensures r.Untouched? <==> !(0 <= index < |slots|) || slots[index].status.Loading?
    ensures r.Cleared? <==> 0 <= index < |slots| && slots[index].status.Broken?
    ensures r.Painted? ==>
              && 0 <= index < |slots| && slots[index].status == Complete(r.draw.image)
              && r.draw.frame == index + 1
              && Covers(r.draw.rect, canvas) && Centred(r.draw.rect, canvas)
              && KeepsAspect(r.draw.rect, r.draw.image) && Tight(r.draw.rect, canvas)
  {
    if !(0 <= index < |slots|) then Untouched
    else
      match slots[index].status
      case Loading => Untouched
      case Broken => Cleared
      case Complete(img) => Painted(Draw(index + 1, img, MaxScaleCover(canvas, img)))
  }

  /** The scroll listener: map the page's scroll position to a slot and draw it. */
  function OnScroll(slots: seq<Slot>, scrollTop: real, maxScroll: real, canvas: Screen): (r: Painted)
    ensures maxScroll == 0.0 && scrollTop <= 0.0 ==> r == Untouched
    ensures FrameIndex(scrollTop, maxScroll).Some? ==>
              r == DrawFrame(slots, FrameIndex(scrollTop, maxScroll).value, canvas)
    ensures |slots| == TotalFrames && maxScroll > 0.0 && 0.0 <= scrollTop <= maxScroll ==>
              var k := FrameIndex(scrollTop, maxScroll).value;
              && 0 <= k < TotalFrames
              && (slots[k].status.Complete? ==> r.Painted? && r.draw.frame == k + 1)
  {
    match FrameIndex(scrollTop, maxScroll)
    case None => Untouched
    case Some(k) => DrawFrame(slots, k, canvas)
  }

  /**
   A painted frame is the one the scroll position selects: frame f shows the
   scaled scroll fraction in [f-1, f), and the last frame everything from 499 up.
   Its slot is complete with the painted image, and the image covers the canvas.
   */
  lemma PaintedFrameMatchesScroll(slots: seq<Slot>, scrollTop: real, maxScroll: real, canvas: Screen)
    requires maxScroll > 0.0
    ensures var r := OnScroll(slots, scrollTop, maxScroll, canvas);
            r.Painted? ==>
              var f := r.draw.frame;
              var x := scrollTop / maxScroll * TotalFrames as real;
              && 1 <= f <= TotalFrames && f - 1 < |slots|
              && slots[f - 1].status == Complete(r.draw.image)
              && (f - 1) as real <= x
              && (f < TotalFrames ==> x < f as real)
              && Covers(r.draw.rect, canvas) && Tight(r.draw.rect, canvas)
  {
  }

  /** Slot 0 finishes loading: it is marked complete and drawn at once. */
  function OnFirstFrameLoad(slots: seq<Slot>, img: Picture, canvas: Screen): (r: (seq<Slot>, Painted))
    requires |slots| > 0
    ensures |r.0| == |slots| && r.0[0] == Slot(slots[0].url, Complete(img))
    ensures forall k :: 1 <= k < |slots| ==> r.0[k] == slots[k]
    ensures r.1 == Painted(Draw(1, img, MaxScaleCover(canvas, img)))
  {
    var s := slots[0 := Slot(slots[0].url, Complete(img))];
    (s, DrawFrame(s, 0, canvas))
  }
}

=== FILE: variants.dfy ===
/**
 How the three players relate: the first player and the progressive player share
 the scroll-to-frame formula except for the guard on its divisor, and the first
 player and the scroll-position player fetch the same files.
 */
module Variants {
  import opened Common
  import opened Viewport
  import RocketAnimation
  import Rocket2Scroll
  import Rocket2Cache
  import RocketLaunch
  import FrameUrl

  /** The clamp picks frame 1 for any non-positive `x`. */
  lemma ClampNonPositive(x: real, n: nat)
    requires n >= 1 && x <= 0.0
    ensures ClampFrame(x, n) == 1
  {
  }

  /** ... and frame `n` for any `x` of at least `n`. */
  lemma ClampAtLeastN(x: real, n: nat)
    requires n >= 1 && x >= n as real
    ensures ClampFrame(x, n) == n
  {
  }

  /** Clamping a non-negative quotient to [0, 1] first does not change the frame. */
  lemma ClampedQuotientSameFrame(q: real)
    requires q >= 0.0
    ensures ClampFrame(q * 700.0, 700) == ClampFrame(RMax(0.0, RMin(1.0, q)) * 700.0, 700)
  {
    if q > 1.0 {
      ClampAtLeastN(q * 700.0, 700);
      ClampAtLeastN(1.0 * 700.0, 700);
    }
  }

  /** A non-negative numerator over a negative divisor selects frame 1. */
  lemma NegativeDivisorFirstFrame(v: real, d: real)
    requires v >= 0.0 && d < 0.0
    ensures ClampFrame(v / d * 700.0, 700) == 1
  {
    var q := v / d;
    assert (-q) * (-d) == v;
    PositiveFactor(-q, -d);
    ClampNonPositive(q * 700.0, 700);
  }

  lemma NonNegativeQuotient(v: real, d: real)
    requires v >= 0.0 && d > 0.0
    ensures v / d >= 0.0
  {
    assert v / d * d == v;
    PositiveFactor(v / d, d);
  }

  /**
   Wherever the divisor is not zero, the unguarded formula of the first player
   selects the same one of the 700 frames as the guarded one of the progressive
   player.
   */
  lemma UnguardedAgreesWithGuarded(b: Box, vh: real)
    requires Denominator(b, vh) != 0.0
    ensures RocketAnimation.TargetFrame(b, vh) == Some(Rocket2Scroll.TargetFrame(b, vh))
  {
    var d := Denominator(b, vh);
    var v := VisibleTop(b);
    assert RocketAnimation.TotalFrames == Rocket2Cache.TotalFrames == 700;
    if d > 0.0 {
      NonNegativeQuotient(v, d);
      ClampedQuotientSameFrame(v / d);
    } else {
      NegativeDivisorFirstFrame(v, d);
    }
  }

  /**
   A container half the viewport tall, scrolled above the viewport, zeroes the
   divisor: the first player jumps to the last frame while the progressive
   player stays on frame 1.
   */
  lemma HalfViewportContainerDisagrees(b: Box, vh: real)
    requires vh > 0.0 && b.height == vh / 2.0 && b.top < 0.0
    ensures Denominator(b, vh) == 0.0
    ensures RocketAnimation.TargetFrame(b, vh) == Some(700)
    ensures Rocket2Scroll.TargetFrame(b, vh) == 1
  {
    DenominatorAboveTop(b, vh);
  }

  /**
   A container taller than the viewport whose top lies exactly its own height
   below the viewport's top (the 200vh container two viewports down) also zeroes
   the divisor, with nothing scrolled past its top: the first player's target
   frame is NaN, while the progressive player shows frame 1.
   */
  lemma ContainerOwnHeightBelowIsNaN(b: Box, vh: real)
    requires vh > 0.0 && b.height > vh && b.top == b.height
    ensures Denominator(b, vh) == 0.0 && VisibleTop(b) == 0.0
    ensures RocketAnimation.TargetFrame(b, vh).None?
    ensures Rocket2Scroll.TargetFrame(b, vh) == 1
  {
  }

  /** The first player and the scroll-position player request the same address for every frame. */
  lemma SameSequenceUrls(f: int)
    ensures RocketAnimation.FrameAddress(f) == RocketLaunch.GetImageUrl(f)
  {
  }

  /** The progressive player's sequence lives elsewhere: no address is shared with the first player. */
  lemma DistinctSequences(f: int, g: int)
    ensures RocketAnimation.FrameAddress(f) != FrameUrl.TemplateUrl(FrameUrl.Rocket2Base, g)
  {
    var a := RocketAnimation.FrameAddress(f);
    var c := FrameUrl.TemplateUrl(FrameUrl.Rocket2Base, g);
    assert a[95] == FrameUrl.RocketBase[95] == '/';
    assert c[95] == FrameUrl.Rocket2Base[95] == '2';
  }
}

=== FILE: viewport.dfy ===
/**
 Where the player's container sits in the browser window, and the activation
 rule both scroll-position-driven players share: the container is "in view" when
 it reaches into the band between 20% and 80% of the viewport height, and the
 first time it comes into view the player asks for frame 1 to be drawn.
 */
module Viewport {
  import opened Common

  /** The container's bounding box relative to the viewport (`getBoundingClientRect`). */
  datatype Box = Box(top: real, height: real)
  {
    function Bottom(): real { top + height }
  }

  /** The activation test: top above 80% of the viewport, bottom below 20%. */
  predicate InView(b: Box, vh: real)
  {
    b.top < vh * 0.8 && b.Bottom() > vh * 0.2
  }

  /** Height `y` lies strictly inside both the middle band of the viewport and the container. */
  predicate SharedHeight(y: real, b: Box, vh: real)
  {
    vh * 0.2 < y < vh * 0.8 && b.top < y < b.Bottom()
  }

  /** The activation test holds exactly when the container overlaps the middle band. */
  lemma InViewIffOverlapsBand(b: Box, vh: real)
    requires vh > 0.0 && b.height > 0.0
    ensures InView(b, vh) <==> exists y :: SharedHeight(y, b, vh)
  {
    if InView(b, vh) {
      var lo := RMax(b.top, vh * 0.2);
      var hi := RMin(b.Bottom(), vh * 0.8);
      assert SharedHeight((lo + hi) / 2.0, b, vh);
    }
  }

  // ---------------------------------------------------------------------------
  // Visible part of the container, as the scroll handlers compute it
  // ---------------------------------------------------------------------------

  /** How far the container's top has scrolled above the viewport. */
  function VisibleTop(b: Box): real
  {
    RMax(0.0, -b.top)
  }

  /** `Math.min(rect.height, windowHeight - rect.top, windowHeight)`. */
  function VisibleHeight(b: Box, vh: real): real
  {
    RMin(b.height, RMin(vh - b.top, vh))
  }

  /**
   The divisor of the scroll-progress quotient. Once the top has scrolled above
   the viewport it is twice the container height less the viewport height for a
   container no taller than the viewport, and the container height otherwise; a
   container wholly inside the viewport gives the same as the short case, and
   one whose top is in view but whose bottom lies below the viewport gives its
   height less the distance of its top from the viewport's top.
   */
  function Denominator(b: Box, vh: real): (d: real)
    ensures b.top < 0.0 ==> d == (if b.height <= vh then 2.0 * b.height - vh else b.height)
    ensures 0.0 <= b.top && b.Bottom() <= vh ==> d == 2.0 * b.height - vh
    ensures 0.0 <= b.top && b.Bottom() > vh ==> d == b.height - b.top
  {
    b.height - vh + VisibleHeight(b, vh)
  }

  /** The scroll progress quotient, before any guard or clamp. */
  function Quotient(b: Box, vh: real): real
    requires Denominator(b, vh) != 0.0
  {
    VisibleTop(b) / Denominator(b, vh)
  }

  /** Once the container's top is above the viewport, the divisor no longer depends on it. */
  lemma DenominatorAboveTop(b: Box, vh: real)
    requires b.top < 0.0
    ensures Denominator(b, vh) == b.height - vh + RMin(b.height, vh)
    ensures VisibleTop(b) == -b.top
  {
  }

  /**
   `Math.min(n, Math.max(1, Math.floor(x) + 1))`: the frame both scroll handlers
   pick for progress `x` scaled by the frame count `n`.
   */
  function ClampFrame(x: real, n: nat): (f: int)
    requires n >= 1
    ensures 1 <= f <= n
  {
    Min(n, Max(1, x.Floor + 1))
  }

  /** For scaled progress in [0, n], frame `f` covers [f-1, f), and frame `n` also covers `n`. */
  lemma ClampFrameWithin(x: real, n: nat)
    requires n >= 1 && 0.0 <= x <= n as real
    ensures (ClampFrame(x, n) - 1) as real <= x
    ensures x < ClampFrame(x, n) as real || (x == n as real && ClampFrame(x, n) == n)
  {
  }

  /** More progress never selects an earlier frame. */
  lemma ClampFrameMonotone(x: real, y: real, n: nat)
    requires n >= 1 && x <= y
    ensures ClampFrame(x, n) <= ClampFrame(y, n)
  {
    assert x.Floor <= y.Floor;
  }

  // ---------------------------------------------------------------------------
  // Activation latch
  // ---------------------------------------------------------------------------

  /** `isActive` and the one-shot `hasStartedRef`. */
  datatype Latch = Latch(active: bool, started: bool)

  /** Every activation sets the latch, so an active player has started. */
  predicate LatchValid(l: Latch) { l.active ==> l.started }

  /**
   One activation check. The second component is true when the check asks for
   frame 1 to be drawn: on the first transition from dormant to active.
   */
  function Check(l: Latch, inView: bool): (r: (Latch, bool))
    ensures r.0.active == inView
    ensures r.1 <==> inView && !l.active && !l.started
    ensures r.0.started <==> l.started || r.1
    ensures LatchValid(l) ==> LatchValid(r.0)
  {
    if inView && !l.active then
      if !l.started then (Latch(true, true), true) else (Latch(true, l.started), false)
    else if !inView && l.active then
      (Latch(false, l.started), false)
    else
      (l, false)
  }

  /** Number of frame-1 requests made by a run of activation checks. */
  function FirstDraws(l: Latch, views: seq<bool>): nat
    decreases |views|
  {
    if |views| == 0 then 0
    else
      var r := Check(l, views[0]);
      (if r.1 then 1 else 0) + FirstDraws(r.0, views[1..])
  }

  /**
   Over any run of checks, frame 1 is requested exactly once if the player had
   not started and comes into view at some point, and never otherwise.
   */
  lemma {:induction false} FirstDrawExactlyOnce(l: Latch, views: seq<bool>)
    requires LatchValid(l)
    ensures FirstDraws(l, views) == (if !l.started && true in views then 1 else 0)
    decreases |views|
  {
    if |views| > 0 {
      var r := Check(l, views[0]);
      FirstDrawExactlyOnce(r.0, views[1..]);
      assert views == [views[0]] + views[1..];
      if views[0] {
        assert r.0.started;
      } else {
        assert r.0.started == l.started;
        assert true in views <==> true in views[1..];
      }
    }
  }
}
